=== FILE: README.md ===
# requote: the lexical requoting engine, in Dafny

requote rewrites the quote characters of the string literals in a Python
source file to match a quoting style and leaves every other token alone.
This project models the engine at its core, in the two versions the
repository carries:

- the current engine, `src/requote/requote.py` (modules `Quoting` and
  `Requote`). It covers the quote characters, the three-field
  `QuoteStyle` with `validate`, `from_dict`, `to_dict` and `STYLES`, the
  literal classifier `split_quotes`, the composer `quote_string`, the
  decision table `requote_string_token` and the token loop of
  `requote_code`;
- the legacy engine, the top-level `requote.py` (modules `LegacyQuoting`
  and `LegacyRequote`). It has the same parts, with a two-field style, a
  classifier that counts the delimiter run on the unstripped token and
  raises IndexError on a blank one, and an `if`/`elif` decision chain.

The two versions share no engine definitions. They share only `Text`,
which holds the few Python `str` operations both rely on, `Tokens`, an
abstract token, and `Results`, the `Option`/`Result` types. `Engines`
proves where the two versions agree.

The current decision table is also given an independent statement,
`Requote.ShapeRule`. It classifies a token into one of five literal shapes
(unrecognised, empty single, empty triple, single with a body, triple with
a body) and rewrites it only when the rewritten literal cannot end
early. Its test is conservative and does not read escapes: any occurrence
of the new quote character in a one-quote body, escaped or not, keeps the
token (`Requote.EscapedQuotesKept`). The source's table is proved equal to it on every token but one
shape: a three-quote literal whose body neither starts nor ends with the
`triple_quoted` character but holds three of it in a row, which the source
wraps in three of that character anyway (see Findings). A corrected table,
`Requote.RequoteStringTokenCorrected`, keeps such a token and is proved
equal to the rule on every token. Idempotence, fixpoints and body
preservation are proved for both tables; safety of every rewrite holds for
the corrected one only. The token loop uses the source's table.

## Model

| member | source | states |
|---|---|---|
| Text.Repeat | src/requote/requote.py:329 | `c * n`: exactly `n` characters, each of them `c` |
| Text.Strip | src/requote/requote.py:317 | `str.strip()`: the result is an infix of the text that starts at its first non-space character, is followed only by whitespace, neither starts nor ends with whitespace, and is empty exactly when the text is all whitespace |
| Text.LeadingRun | src/requote/requote.py:328 | `len(s) - len(s.lstrip(c))`: every character of the run is `c`, and the character after it is not |
| Text.DropBoth | src/requote/requote.py:330 | the slice `s[n:-n]`: empty for `n == 0` and once the two ends meet, otherwise the middle of `s`, character by character |
| Text.LeadingRunUnique | requote.py:268 | the run length is the only count whose prefix is all `c` and whose next character is not `c`, so `takewhile` and `lstrip` agree |
| Text.IsSpace | src/requote/requote.py:317 | the whitespace `str.strip()` removes, Python's `str.isspace()`: among ASCII characters exactly space, tab, line feed, vertical tab, form feed, carriage return and 0x1C to 0x1F; never a quote character |
| Text.StartsWithByIndex | src/requote/requote.py:394 | `s.startswith(p)` holds exactly when `p` is no longer than `s` and matches it character by character from the front |
| Text.EndsWithByIndex | src/requote/requote.py:397 | `s.endswith(p)` holds exactly when `p` is no longer than `s` and matches its last characters one by one |
| Text.StripTrimmed | src/requote/requote.py:317 | stripping a text that neither starts nor ends with whitespace gives the text back |
| Quoting.ParseQuoteChar | src/requote/requote.py:66-73 | `QuoteChar(value)` succeeds exactly on `'` and `"`, and then gives the member whose value it is |
| Quoting.QuoteCharsAreValues | src/requote/requote.py:323 | `supported_quotes`, `{i.value for i in QuoteChar}`, holds exactly the characters whose one-character string `QuoteChar(...)` accepts |
| Quoting.IsValidQuote | src/requote/requote.py:127-134 | `_is_valid_quote` holds exactly on the strings `'` and `"` |
| Quoting.QuoteChar.Escaped | src/requote/requote.py:75-78 | the escaped form is a backslash followed by the character itself |
| Quoting.QuoteChar.Other | src/requote/requote.py:80-85 | the other character always has a different value |
| Quoting.OtherIsInvolution | src/requote/requote.py:80-85 | `other` always gives the other character, and applying it twice is the identity |
| Quoting.Validate | src/requote/requote.py:185-195 | a mapping is accepted exactly when all three required keys are present with a quote character as value; missing keys are reported, all of them, before any value is checked; an invalid value is reported with its key |
| Quoting.FromDict | src/requote/requote.py:197-216 | a style is built exactly from the mappings `validate` accepts, with the mapping's three characters; otherwise the validation error is passed on |
| Quoting.ToDict | src/requote/requote.py:218-224 | exactly the three required keys, each mapped to a single quote character |
| Quoting.ToDictValidates | src/requote/requote.py:124-125 | the validation `__post_init__` runs on every new style always passes |
| Quoting.FromDictToDict | src/requote/requote.py:197-224 | `from_dict(to_dict(s)) == s` for each of the eight styles |
| Quoting.ToDictFromDict | src/requote/requote.py:197-224 | an accepted mapping, restricted to the required keys, is `to_dict` of the style built from it |
| Quoting.RejectsNonQuoteValues | src/requote/requote.py:191-195 | a value that is not exactly one quote character under any of the three keys makes `from_dict` fail |
| Quoting.BuiltinStyles | src/requote/requote.py:234-246 | `STYLES` holds exactly "black" (double quotes everywhere) and "c_style" (single quotes for empty and one-character literals), and both survive the mapping round trip |
| Requote.SplitQuotes | src/requote/requote.py:315-330 | the delimiters are equal; they are empty exactly when the stripped token is empty or does not start with a quote character, and then the body is the whole token; otherwise they are the maximal run of the leading quote character of the stripped text, and the body is that text with the run dropped at both ends |
| Requote.QuoteString | src/requote/requote.py:333-336 | `count` copies of the quote, then the body unchanged, then `count` copies again |
| Requote.SplitComposed | src/requote/requote.py:315-336 | what `split_quotes` reads from a composed literal: an empty body gives one run of twice the count; a body that starts with the quote character lengthens the run; any other body comes back with the delimiters it was composed with |
| Requote.SplitQuoteStringRoundTrip | src/requote/requote.py:315-336 | `split_quotes` inverts `quote_string` if and only if the body is non-empty and does not start with the quote character |
| Requote.DelimitedByLength | src/requote/requote.py:364-389 | on the output of `split_quotes`, each `case` pattern `(q * n, _, q * n)` matches exactly when the delimiter is `n` long |
| Requote.RequoteStringToken | src/requote/requote.py:352-406 | `requote_string_token` as written: a token that is not recognised, or whose delimiter run is not 1, 2, 3 or 6 long, comes back unchanged |
| Requote.RequoteStringTokenCorrected | src/requote/requote.py:352-406 | the same table with the three-quote case also keeping a body that holds three `triple_quoted` characters in a row (see Findings); unrecognised tokens and other run lengths are kept |
| Requote.CorrectionIsNarrow | src/requote/requote.py:389-401 | the corrected table differs from the source only on three-quote literals whose body holds three `triple_quoted` characters in a row, and it keeps those |
| Requote.RequoteFollowsShapeRule | src/requote/requote.py:363-406 | the source's table equals the shape rule (empty literals always rewritten, the empty triple with `string`; single and triple literals rewritten with the style's character exactly when that is safe; everything else kept) on every token except a three-quote literal whose non-empty body neither starts nor ends with `triple_quoted` but holds three of it in a row, which it wraps in three `triple_quoted` characters |
| Requote.TripleCaseAsWritten | src/requote/requote.py:389-401 | the three-quote arm: a token whose body starts or ends with `triple_quoted` is kept; any other, the empty body included, is wrapped in three `triple_quoted` characters, with no look inside the body |
| Requote.CorrectedFollowsShapeRule | src/requote/requote.py:363-406 | the corrected table equals the shape rule on every token |
| Requote.ComposedIsWellShaped | src/requote/requote.py:315-336 | every literal Python accepts without a prefix, a body between one quote character it does not start with (it may hold an escaped one further on, as in `'it\'s'`) or between three, is well shaped: `split_quotes` does not read it as a one- or three-quote literal with an empty body |
| Requote.EscapedQuotesKept | src/requote/requote.py:380-382 | `'\"\"'` under "c_style" is kept, because `string.count` sees the escaped double quotes; the shape rule rejects its body as unsafe although the rewrite would be a complete literal |
| Requote.EmptyTripleRewritten | src/requote/requote.py:368-369 | an empty triple-quoted literal, read as a run of six, becomes an empty triple-quoted literal in the `string` character |
| Requote.InStyleIsFixpoint | src/requote/requote.py:363-406 | a literal already written the way the style wants is left unchanged by the source's table and by the corrected one |
| Requote.RequoteReachesStyle | src/requote/requote.py:363-406 | with either table, every rewrite of a well-shaped token is a literal already in the style |
| Requote.RequoteIdempotent | src/requote/requote.py:352-406 | with either table, requoting a well-shaped token twice gives the same text as requoting it once |
| Requote.RewritesAreSafe | src/requote/requote.py:363-406 | every rewrite of the corrected table keeps the body character for character and wraps it in one of the style's characters, in a way that cannot end the literal early |
| Requote.RequoteKeepsBody | src/requote/requote.py:363-406 | with either table, reading a rewritten literal back with `split_quotes` gives the body of the original token |
| Requote.AsWrittenBreaksInnerRun | src/requote/requote.py:389-401 | as written, a body that neither starts nor ends with `triple_quoted` but holds three of it in a row is wrapped in three of that character, which is not a safe literal; the corrected table keeps it |
| Requote.InnerRunTables | src/requote/requote.py:389-401 | on such a body the source's table wraps it in three `triple_quoted` characters and the corrected table keeps the token |
| Requote.InnerRunExample | src/requote/requote.py:389-401 | the token `'''a"""b'''` under "c_style" becomes `"""a"""b"""` as written, and is kept by the corrected table |
| Requote.RequoteToken | src/requote/requote.py:411-417 | one step of the token loop: a string token gets its requoted text, any other token is passed on unchanged, and type and positions are always kept |
| Requote.RequoteTokens | src/requote/requote.py:408-417 | the loop keeps the number and order of the tokens and applies one step to each |
| Requote.RequoteTokensContract | src/requote/requote.py:408-417 | every non-string token comes out untouched, and every string token has only its text replaced, by its requoted text |
| Requote.NonStringsPreserved | src/requote/requote.py:408-417 | the non-string tokens of the output are exactly those of the input, in order |
| Requote.RequoteTokensIdempotent | src/requote/requote.py:408-417 | requoting a stream whose string tokens are well shaped twice gives the same stream as requoting it once |
| LegacyQuoting.ParseQuoteChar | requote.py:65-72 | `QuoteChar(value)` succeeds exactly on `'` and `"`, and then gives the member whose value it is |
| LegacyQuoting.Validate | requote.py:127-151 | a mapping is accepted exactly when `single_char` and `string` are present with quote characters as values; the error names the first failing check, in the source's order |
| LegacyQuoting.FromDict | requote.py:153-170 | accepts exactly what `validate` accepts, with the mapping's two characters; otherwise it fails, in Python's evaluation order, with KeyError for a missing `single_char`, else ValueError for a bad `single_char` value, else KeyError for a missing `string`, else ValueError for a bad `string` value |
| LegacyQuoting.ToDict | requote.py:172-177 | exactly the two keys, each mapped to a quote character |
| LegacyQuoting.ToDictValidates | requote.py:80-81 | the validation `__post_init__` runs on every new style always passes |
| LegacyQuoting.FromDictToDict | requote.py:153-177 | `from_dict(to_dict(s)) == s` for every legacy style |
| LegacyQuoting.ToDictFromDict | requote.py:153-177 | an accepted mapping, restricted to the two keys, is `to_dict` of the style built from it |
| LegacyQuoting.OtherKeysIgnored | requote.py:127-170 | keys other than `single_char` and `string`, `triple_quoted` among them, change neither the validation nor the style built |
| LegacyQuoting.FromDictFailsInEvaluationOrder | requote.py:167-170 | a bad `single_char` value is reported as ValueError even when `string` is missing, while `validate` reports the missing key |
| LegacyQuoting.BuiltinStyles | requote.py:183-195 | `Styles` holds exactly "black" and "c_style" with the characters their names promise, and both survive the mapping round trip |
| LegacyRequote.LeadersAreQuoteValues | requote.py:263-265 | `LegacyQuoting.QuoteValues`, the set `{q.value for q in QuoteChar}` built as `quote_chars` (requote.py:138) and `supported_quotes` (requote.py:263), holds a one-character string exactly when its character is in `LegacyRequote.Leaders`, the two quote characters; so the leader test is a test on one character |
| LegacyRequote.SplitQuotes | requote.py:257-270 | fails exactly on a blank token; a token whose stripped text does not start with a quote character comes back whole; otherwise the delimiters are the run of that character at the front of the unstripped token, and the body is the unstripped token without the run at both ends |
| LegacyRequote.LeadingSpaceEmptiesSplit | requote.py:257-270 | a token with leading whitespace before a quote character is split into three empty parts |
| LegacyRequote.QuoteString | requote.py:273-276 | `count` copies of the quote, then the body unchanged, then `count` copies again |
| LegacyRequote.SplitComposed | requote.py:257-276 | what `split_quotes` reads from a composed literal: an empty body gives one run of twice the count, a body starting with the quote lengthens the run, any other body comes back with its delimiters |
| LegacyRequote.Rewrite | requote.py:304-329 | three quotes are always rewritten with `string`, two with an empty `single_char` literal; one quote is wrapped in `single_char` when the body is shorter than two characters, or is a backslash and one more character, and does not contain `single_char`; otherwise in `string` when the body is non-empty and does not contain `string`; it is kept exactly when `string` occurs in the body and the `single_char` branches do not apply; other run lengths are kept |
| LegacyRequote.RequoteStringToken | requote.py:292-331 | fails exactly on a blank token, and keeps every token whose delimiter run is not 1, 2 or 3 long |
| LegacyRequote.RewriteStable | requote.py:302-329 | the text a rewrite produces is read back by `split_quotes`, and the chain then either reproduces it or keeps it |
| LegacyRequote.RequoteIdempotent | requote.py:292-331 | requoting any accepted token twice gives the same text as requoting it once |
| LegacyRequote.RequoteKeepsBody | requote.py:292-331 | a rewritten literal reads back with the original body, except for a three-quote literal whose body starts with `string` and a two-quote token with text after its quotes |
| LegacyRequote.TripleRuleLosesBody | requote.py:304-306 | a three-quote literal whose body starts with the `string` character is rewritten into a literal that `split_quotes` reads with a different body |
| LegacyRequote.TripleQuoteExample | requote.py:304-306 | the literal of three single quotes around a double quote becomes seven double quotes under "c_style", which read back with an empty body |
| LegacyRequote.EmptyTripleKept | requote.py:302-329 | an empty triple-quoted literal reads as a run of six and is kept, whatever the style |
| LegacyRequote.RequoteToken | requote.py:336-342 | one step of the token loop: fails exactly on a blank string token; otherwise a string token gets its requoted text and any other token passes on unchanged |
| LegacyRequote.RequoteTokens | requote.py:333-342 | the loop fails exactly when one of its steps fails, and otherwise keeps the number and order of the tokens and applies one step to each |
| LegacyRequote.RequoteTokensContract | requote.py:333-342 | the loop fails exactly on a blank string token; otherwise non-string tokens come out untouched and string tokens have only their text replaced |
| LegacyRequote.NonStringsPreserved | requote.py:333-342 | the non-string tokens of the output are exactly those of the input, in order |
| LegacyRequote.RequoteTokensIdempotent | requote.py:333-342 | requoting an accepted token stream twice gives the same stream as requoting it once |
| Engines.SplitsAgree | requote.py:257-270 | on a token with no surrounding whitespace, the legacy `split_quotes` succeeds and agrees part by part with the current one |
| Engines.RewritesAgree | requote.py:302-329 | on a token with no surrounding whitespace, under styles choosing the same characters, both engines produce the same text for an empty single literal, a one-quote literal of three or more characters, a three-quote literal that is safe or has an unguarded inner run, and a token whose run is not 1, 2, 3 or 6 long |
| Engines.PaddedEmptyDiffers | requote.py:257-270 | with a space before it, the empty single literal ` ''` is kept by the legacy engine, which counts no run on the unstripped text, and becomes `''` in the current one under "c_style" |
| Engines.InnerRunAgrees | requote.py:304-306 | on a three-quote literal with an unguarded inner run, both engines wrap the body in three of the same character |

## Left out

- Turning source text into tokens and back (`tokenize.tokenize`, `tokenize.untokenize` and the UTF-8 encoding around them) is not modelled. A token is its type, its text and the positional fields the loop copies. `requote_code` is modelled as its token loop.
- The command line (`get_parser`, `main`), configuration loading (`json_loader`, `toml_loader`, `load_conf`, `get_style`) and file I/O are outside the engine and are left out.
- `QuoteStyle.__str__` and the message text of ValidationError are left out. Only which check failed, and on which key, is kept.
- Style mappings are modelled with string values only. The legacy `validate` also accepts `QuoteChar` members as values (requote.py:142-151), and the current `_is_valid_quote` passes its argument to `QuoteChar(...)` unchanged. Dynamic typing is not modelled.
- Quoting.Validate: Python walks `required_keys` in set order, which depends on string hashing, when it reports an invalid value. The model checks the keys in a fixed order, so its contract promises only that the reported key is one of the required keys with an invalid value.
- Requote.RewritesAreSafe: it is stated for the corrected table only. The source's table wraps a three-quote body holding three `triple_quoted` characters in a row in that character, which is not safe (see Findings and `Requote.AsWrittenBreaksInnerRun`).
- Requote.RequoteIdempotent: it is stated for well-shaped tokens only, those `split_quotes` does not read as a one- or three-quote literal with an empty body. Every complete unprefixed literal is well shaped (`Requote.ComposedIsWellShaped`). An unterminated token such as `'x`, which reads as one quote around nothing, is a counterexample to idempotence without that assumption.
- LegacyRequote.RequoteKeepsBody: it is stated with exceptions for two shapes. Both shapes lose their body in the source itself, and the first is a finding.
- Engines.RewritesAgree: it covers only the shapes on which the two engines agree. Outside them the engines can decide differently: the empty triple literal (kept by the legacy engine); a two-quote run with text after it, such as `''x''`, which the legacy engine turns into `''` and the current one keeps; one-quote literals of at most two characters, the empty body included, where the engines pick the wrapping character by different rules (under "c_style", `'x` becomes `''` in the legacy engine and `""` in the current one); and three-quote literals whose body starts or ends with `triple_quoted`. Every shape can differ as well when the token has whitespace around it, because the legacy engine counts the run on the unstripped text: ` ''` under "c_style" is kept by the legacy engine and becomes `''` in the current one (`Engines.PaddedEmptyDiffers`). The tokenizer never produces a STRING token with surrounding whitespace, so this last difference does not arise in `requote_code`.

## Findings

| source | as written | input that shows it | evidently intended | confidence | as-written member | corrected member |
|---|---|---|---|---|---|---|
| requote.py:304-306 | every three-quote literal is rewritten with `string`, without looking at the body | `'''"'''` under "c_style" becomes seven double quotes | a body starting with the new quote character is kept, as tests/test_requote.py:229-235 expects | high (the repository's test marks this row as an expected failure); not executed | LegacyRequote.TripleRuleLosesBody | Requote.RequoteKeepsBody |
| requote.py:302-329 | a run of six quotes matches no branch, so an empty triple literal is kept | `''''''` under "c_style" stays `''''''` | it becomes `""""""`, as tests/test_requote.py:220-224 expects | high (the repository's test marks this row as an expected failure); not executed | LegacyRequote.EmptyTripleKept | Requote.EmptyTripleRewritten |
| src/requote/requote.py:389-401 | the three-quote case checks only the first and last character of the body against `triple_quoted` | `'''a"""b'''` under "c_style" becomes `"""a"""b"""`, which Python reads as `"""a"""` followed by an unterminated `b"""` literal | a body holding three `triple_quoted` characters in a row is kept, like one that starts or ends with that character | medium; not executed | Requote.AsWrittenBreaksInnerRun | Requote.RewritesAreSafe |

=== FILE: engines.dfy ===
/** How the two engines relate. On a token with no surrounding whitespace
    they split alike, and under styles that pick the same characters they
    rewrite alike, except for the shapes where the two engines can decide
    differently: an empty triple-quoted literal, a two-quote run with text
    after it, a one-quote literal of at most two characters (the empty body
    included), and a three-quote literal whose body starts or ends with the
    `triple_quoted` character. */
module Engines {
  import opened Results
  import opened Text
  import Requote
  import LegacyRequote
  import Quoting
  import LegacyQuoting

  /** A current style and a legacy style that choose the same character
      for empty and one-character literals, and the same single character
      for ordinary and triple-quoted literals. */
  predicate Corresponds(cur: Quoting.QuoteStyle, leg: LegacyQuoting.QuoteStyle)
  {
    && cur.singleChar.Value() == leg.singleChar.Value()
    && cur.stringQuote.Value() == leg.stringQuote.Value()
    && cur.tripleQuoted.Value() == leg.stringQuote.Value()
  }

  /** A token that neither starts nor ends with whitespace: both
      `split_quotes` succeed and give the same three parts. */
  lemma SplitsAgree(tok: string)
    requires tok != [] && !IsSpace(tok[0]) && !IsSpace(tok[|tok| - 1])
    ensures LegacyRequote.SplitQuotes(tok).Ok?
    ensures var a := Requote.SplitQuotes(tok); var b := LegacyRequote.SplitQuotes(tok).value;
      a.left == b.left && a.body == b.body && a.right == b.right
  {
    StripTrimmed(tok);
    var c := tok[0];
    assert c in Quoting.QuoteChars() <==> c in LegacyRequote.Leaders();
    if c in Quoting.QuoteChars() {
      var a := Requote.SplitQuotes(tok);
      var b := LegacyRequote.SplitQuotes(tok).value;
      LeadingRunUnique(tok, c, |a.left|);
      LeadingRunUnique(tok, c, |b.left|);
    }
  }

  /** On a token with no surrounding whitespace, under corresponding
      styles, both engines give the same text for an
      empty one-quote literal, a one-quote literal of three or more
      characters, a three-quote literal that is safe to rewrite or whose
      body holds an unguarded run (which both wrap in three of the same
      character), and a token whose delimiter run is not 1, 2, 3 or 6
      long. */
  lemma RewritesAgree(tok: string, cur: Quoting.QuoteStyle, leg: LegacyQuoting.QuoteStyle)
    requires tok != [] && !IsSpace(tok[0]) && !IsSpace(tok[|tok| - 1])
    requires Corresponds(cur, leg)
    ensures var sp := Requote.SplitQuotes(tok); var n := |sp.left|;
      (|| (n == 2 && sp.body == [])
       || (n == 1 && |sp.body| >= 3)
       || (n == 3 && Requote.SafeLiteral(cur.tripleQuoted, 3, sp.body))
       || Requote.UnguardedInnerRun(tok, cur)
       || n !in {1, 2, 3, 6})
      ==> LegacyRequote.RequoteStringToken(tok, leg) == Ok(Requote.RequoteStringToken(tok, cur))
  {
    SplitsAgree(tok);
    var sp := Requote.SplitQuotes(tok);
    var n := |sp.left|;
    if n == 2 && sp.body == [] {
      EmptyAgrees(tok, cur, leg);
    } else if n == 1 && |sp.body| >= 3 {
      SingleAgrees(tok, cur, leg);
    } else if n == 3 && Requote.SafeLiteral(cur.tripleQuoted, 3, sp.body) {
      TripleAgrees(tok, cur, leg);
    } else if Requote.UnguardedInnerRun(tok, cur) {
      InnerRunAgrees(tok, cur, leg);
    } else if n !in {1, 2, 3, 6} {
      Requote.RequoteFollowsShapeRule(tok, cur);
    }
  }

  /** The empty one-quote case of `RewritesAgree`. */
  lemma EmptyAgrees(tok: string, cur: Quoting.QuoteStyle, leg: LegacyQuoting.QuoteStyle)
    requires tok != [] && !IsSpace(tok[0]) && !IsSpace(tok[|tok| - 1])
    requires Corresponds(cur, leg)
    requires |Requote.SplitQuotes(tok).left| == 2 && Requote.SplitQuotes(tok).body == []
    ensures LegacyRequote.RequoteStringToken(tok, leg) == Ok(Requote.RequoteStringToken(tok, cur))
  {
    SplitsAgree(tok);
    Requote.RequoteFollowsShapeRule(tok, cur);
  }

  /** The long one-quote case of `RewritesAgree`. */
  lemma SingleAgrees(tok: string, cur: Quoting.QuoteStyle, leg: LegacyQuoting.QuoteStyle)
    requires tok != [] && !IsSpace(tok[0]) && !IsSpace(tok[|tok| - 1])
    requires Corresponds(cur, leg)
    requires |Requote.SplitQuotes(tok).left| == 1 && |Requote.SplitQuotes(tok).body| >= 3
    ensures LegacyRequote.RequoteStringToken(tok, leg) == Ok(Requote.RequoteStringToken(tok, cur))
  {
    SplitsAgree(tok);
    Requote.RequoteFollowsShapeRule(tok, cur);
  }

  /** The safe three-quote case of `RewritesAgree`. */
  lemma TripleAgrees(tok: string, cur: Quoting.QuoteStyle, leg: LegacyQuoting.QuoteStyle)
    requires tok != [] && !IsSpace(tok[0]) && !IsSpace(tok[|tok| - 1])
    requires Corresponds(cur, leg)
    requires |Requote.SplitQuotes(tok).left| == 3
    requires Requote.SafeLiteral(cur.tripleQuoted, 3, Requote.SplitQuotes(tok).body)
    ensures LegacyRequote.RequoteStringToken(tok, leg) == Ok(Requote.RequoteStringToken(tok, cur))
  {
    SplitsAgree(tok);
    var b := Requote.SplitQuotes(tok).body;
    SafeTripleRewritten(tok, b, cur);
    assert LegacyRequote.RequoteStringToken(tok, leg) == Ok(LegacyRequote.QuoteString(b, leg.stringQuote, 3));
  }

  /** The unguarded inner-run case of `RewritesAgree`: both engines wrap
      the body in three of the same character. */
  lemma InnerRunAgrees(tok: string, cur: Quoting.QuoteStyle, leg: LegacyQuoting.QuoteStyle)
    requires tok != [] && !IsSpace(tok[0]) && !IsSpace(tok[|tok| - 1])
    requires Corresponds(cur, leg)
    requires Requote.UnguardedInnerRun(tok, cur)
    ensures LegacyRequote.RequoteStringToken(tok, leg) == Ok(Requote.RequoteStringToken(tok, cur))
  {
    SplitsAgree(tok);
    var b := Requote.SplitQuotes(tok).body;
    Requote.TripleFollowsShapeRule(tok, cur);
    assert Requote.RequoteStringToken(tok, cur) == Requote.QuoteString(b, cur.tripleQuoted, 3);
    assert LegacyRequote.RequoteStringToken(tok, leg) == Ok(LegacyRequote.QuoteString(b, leg.stringQuote, 3));
  }

  /** A safe three-quote literal is rewritten by the source's table with
      three `triple_quoted` characters. */
  lemma SafeTripleRewritten(tok: string, b: string, cur: Quoting.QuoteStyle)
    requires |Requote.SplitQuotes(tok).left| == 3 && Requote.SplitQuotes(tok).body == b
    requires Requote.SafeLiteral(cur.tripleQuoted, 3, b)
    ensures Requote.RequoteStringToken(tok, cur) == Requote.QuoteString(b, cur.tripleQuoted, 3)
  {
    Requote.TripleFollowsShapeRule(tok, cur);
    assert Requote.Classify(tok) == Requote.Triple(b);
  }

  /** Outside the unpadded tokens the engines part ways on every shape:
      with a space in front, the legacy engine counts no run at all and
      keeps an empty single literal that the current one rewrites. */
  lemma PaddedEmptyDiffers()
    ensures LegacyRequote.RequoteStringToken(" ''", LegacyQuoting.CStyle) == Ok(" ''")
    ensures Requote.RequoteStringToken(" ''", Quoting.CStyle) == "''"
  {
    var tok := " ''";
    assert Strip(tok) == "''" by {
      assert LeadingSpaces(tok) == 1;
    }
    LegacyRequote.LeadingSpaceEmptiesSplit(tok);
    Requote.SplitEmptyComposed([], Quoting.SingleQuote, 1);
    assert Requote.QuoteString([], Quoting.SingleQuote, 1) == "''";
  }
}

=== FILE: legacy_quoting.dfy ===
/** Quote characters and quoting styles of the legacy engine (the
    top-level requote.py): the same two quote characters, but a two-field
    `QuoteStyle` with no `triple_quoted` character, a validation that checks
    its keys and values one at a time, and a `from_dict` that does not
    validate at all and instead fails on the first lookup or enum
    conversion that goes wrong. */
module LegacyQuoting {
  import opened Results

  /** `QuoteChar` of the legacy file. */
  datatype QuoteChar = SingleQuote | DoubleQuote {

    /** The enum member's value, `'` or `"`. */
    function Value(): char
    {
      if SingleQuote? then '\'' else '"'
    }
  }

  /** `{q.value for q in QuoteChar}`, as one-character strings. */
  function QuoteValues(): set<string>
  {
    {[SingleQuote.Value()], [DoubleQuote.Value()]}
  }

  /** `QuoteChar(value)`: the member whose value is `s`, or `None` where
      Python raises ValueError. */
  function ParseQuoteChar(s: string): (r: Option<QuoteChar>)
    ensures r.Some? <==> s == "'" || s == "\""
    ensures r.Some? ==> s == [r.value.Value()]
  {
    if s == [SingleQuote.Value()] then Some(SingleQuote)
    else if s == [DoubleQuote.Value()] then Some(DoubleQuote)
    else None
  }

  /** Looking a member up by its own value gives the member back. */
  lemma ParseValue(q: QuoteChar)
    ensures ParseQuoteChar([q.Value()]) == Some(q)
  {
  }

  datatype QuoteStyle = QuoteStyle(singleChar: QuoteChar, stringQuote: QuoteChar)

  const SingleCharKey: string := "single_char"
  const StringKey: string := "string"

  /** The only two keys the legacy style reads and writes. */
  const StyleKeys: set<string> := {SingleCharKey, StringKey}

  /** What the ValidationError raised by the legacy `validate` reports: the
      key that is missing, or the key whose value is not a quote character. */
  datatype ValidationError =
    | MissingKey(key: string)
    | InvalidValue(key: string, value: string)

  /** The legacy `QuoteStyle.validate`. It checks, in this order: that
      `single_char` is present, that `string` is present, that the
      `single_char` value is a quote character, and that the `string` value
      is one; the first check that fails decides the error. The contract
      pins the error down completely, order included. */
  function Validate(style: map<string, string>): (r: Result<(), ValidationError>)
    ensures r.Ok? <==>
      && SingleCharKey in style && StringKey in style
      && style[SingleCharKey] in {"'", "\""}
      && style[StringKey] in {"'", "\""}
    ensures r.Err? && r.error.MissingKey? ==>
      && r.error.key in StyleKeys
      && r.error.key !in style
      && (r.error.key == StringKey ==> SingleCharKey in style)
    ensures r.Err? && r.error.InvalidValue? ==>
      && StyleKeys <= style.Keys
      && r.error.key in StyleKeys
      && style[r.error.key] == r.error.value
      && r.error.value !in {"'", "\""}
      && (r.error.key == StringKey ==> style[SingleCharKey] in {"'", "\""})
  {
    if SingleCharKey !in style then Err(MissingKey(SingleCharKey))
    else if StringKey !in style then Err(MissingKey(StringKey))
    else if style[SingleCharKey] !in QuoteValues() then Err(InvalidValue(SingleCharKey, style[SingleCharKey]))
    else if style[StringKey] !in QuoteValues() then Err(InvalidValue(StringKey, style[StringKey]))
    else Ok(())
  }

  /** The exceptions the legacy `from_dict` lets escape. */
  datatype LookupError =
    | KeyError(key: string)
    | ValueError(value: string)

  /** The legacy `QuoteStyle.from_dict`: `QuoteChar(style["single_char"])`
      and then `QuoteChar(style["string"])`, each lookup and each conversion
      failing in Python's evaluation order. It accepts exactly the mappings
      `validate` accepts, and then the style's characters are the mapping's
      two values; `triple_quoted` and every other key are never read. */
  function FromDict(style: map<string, string>): (r: Result<QuoteStyle, LookupError>)
    ensures r.Ok? <==> Validate(style).Ok?
    ensures r.Ok? ==>
      && [r.value.singleChar.Value()] == style[SingleCharKey]
      && [r.value.stringQuote.Value()] == style[StringKey]
    ensures r.Err? && r.error.KeyError? ==>
      r.error.key !in style && Validate(style) == Err(MissingKey(r.error.key))
    ensures r.Err? && r.error.ValueError? ==>
      r.error.value !in {"'", "\""} &&
      ((SingleCharKey in style && style[SingleCharKey] == r.error.value) ||
       (StringKey in style && style[StringKey] == r.error.value))
    ensures SingleCharKey !in style ==> r == Err(KeyError(SingleCharKey))
    ensures SingleCharKey in style && style[SingleCharKey] !in {"'", "\""} ==>
      r == Err(ValueError(style[SingleCharKey]))
    ensures SingleCharKey in style && style[SingleCharKey] in {"'", "\""} && StringKey !in style ==>
      r == Err(KeyError(StringKey))
    ensures SingleCharKey in style && style[SingleCharKey] in {"'", "\""} &&
            StringKey in style && style[StringKey] !in {"'", "\""} ==>
      r == Err(ValueError(style[StringKey]))
  {
    if SingleCharKey !in style then Err(KeyError(SingleCharKey))
    else
      match ParseQuoteChar(style[SingleCharKey])
      case None => Err(ValueError(style[SingleCharKey]))
      case Some(single) =>
        if StringKey !in style then Err(KeyError(StringKey))
        else
          match ParseQuoteChar(style[StringKey])
          case None => Err(ValueError(style[StringKey]))
          case Some(str) => Ok(QuoteStyle(single, str))
  }

  /** The legacy `QuoteStyle.to_dict`: exactly two keys, each mapped to its
      field's character. */
  function ToDict(s: QuoteStyle): (r: map<string, string>)
    ensures r.Keys == StyleKeys
    ensures forall k :: k in r ==> r[k] in QuoteValues()
  {
    map[SingleCharKey := [s.singleChar.Value()], StringKey := [s.stringQuote.Value()]]
  }

  /** The check `__post_init__` runs on every new style always passes. */
  lemma ToDictValidates(s: QuoteStyle)
    ensures Validate(ToDict(s)).Ok?
  {
  }

  /** `from_dict(to_dict(s)) == s` for every legacy style. */
  lemma FromDictToDict(s: QuoteStyle)
    ensures FromDict(ToDict(s)) == Ok(s)
  {
    ParseValue(s.singleChar);
    ParseValue(s.stringQuote);
  }

  /** The converse: a mapping `from_dict` accepts comes back from `to_dict`
      restricted to the two keys. */
  lemma ToDictFromDict(style: map<string, string>)
    requires FromDict(style).Ok?
    ensures ToDict(FromDict(style).value) == map k | k in StyleKeys :: style[k]
  {
  }

  /** Keys other than `single_char` and `string`, `triple_quoted` among
      them, change neither the validation nor the style built. */
  lemma OtherKeysIgnored(style: map<string, string>, k: string, v: string)
    requires k !in StyleKeys
    ensures Validate(style[k := v]) == Validate(style)
    ensures FromDict(style[k := v]) == FromDict(style)
  {
    var s' := style[k := v];
    assert SingleCharKey in s' <==> SingleCharKey in style;
    assert StringKey in s' <==> StringKey in style;
    if SingleCharKey in style {
      assert s'[SingleCharKey] == style[SingleCharKey];
    }
    if StringKey in style {
      assert s'[StringKey] == style[StringKey];
    }
  }

  /** A missing key surfaces as KeyError only when every lookup and
      conversion before it succeeded: a bad `single_char` value is reported
      as ValueError even when `string` is missing, where `validate` reports
      the missing key. */
  lemma FromDictFailsInEvaluationOrder(v: string)
    requires v !in {"'", "\""}
    ensures FromDict(map[SingleCharKey := v]) == Err(ValueError(v))
    ensures Validate(map[SingleCharKey := v]) == Err(MissingKey(StringKey))
  {
    var m := map[SingleCharKey := v];
    assert m[SingleCharKey] == v;
    assert StringKey !in m;
  }

  /** The legacy "black" style: double quotes everywhere. */
  const Black: QuoteStyle := QuoteStyle(DoubleQuote, DoubleQuote)

  /** The legacy "c_style" style: single quotes for empty and one-character
      literals, double quotes for the rest. */
  const CStyle: QuoteStyle := QuoteStyle(SingleQuote, DoubleQuote)

  /** The legacy `Styles`. */
  const Styles: map<string, QuoteStyle> := map["black" := Black, "c_style" := CStyle]

  /** The registry holds the two named styles with the characters their
      names promise, and each survives the mapping round trip. */
  lemma BuiltinStyles()
    ensures Styles.Keys == {"black", "c_style"}
    ensures ToDict(Styles["black"]) == map[SingleCharKey := "\"", StringKey := "\""]
    ensures ToDict(Styles["c_style"]) == map[SingleCharKey := "'", StringKey := "\""]
    ensures forall name :: name in Styles ==> FromDict(ToDict(Styles[name])) == Ok(Styles[name])
  {
    FromDictToDict(Black);
    FromDictToDict(CStyle);
  }
}

=== FILE: legacy_requote.dfy ===
/** The legacy requoting engine (the top-level requote.py): its
    `split_quotes`, `quote_string`, the `if`/`elif` chain of
    `requote_string_token` and the token loop of `requote_code`.

    It differs from the current engine in three ways the model keeps: the
    run of quote characters is counted on the unstripped token, a token
    whose stripped text is empty makes `split_quotes` raise IndexError, and
    the decision chain rewrites every three-quote literal with the `string`
    character without looking at its body. The last one is what the
    lemmas `TripleRuleLosesBody` and `TripleQuoteExample` exhibit. */
module LegacyRequote {
  import opened Results
  import opened Text
  import opened LegacyQuoting
  import opened Tokens

  /** The `(left delimiter, body, right delimiter)` triple of `split_quotes`. */
  datatype Split = Split(left: string, body: string, right: string)

  /** The exception `split_quotes` raises: `stripped[0]` on an empty text. */
  datatype Failure = IndexError

  /** The characters whose one-character strings make up
      `supported_quotes`. */
  function Leaders(): set<char>
  {
    {SingleQuote.Value(), DoubleQuote.Value()}
  }

  /** `leader not in supported_quotes` is a test on one character. */
  lemma LeadersAreQuoteValues(c: char)
    ensures c in Leaders() <==> [c] in QuoteValues()
  {
  }

  /** The legacy `split_quotes`. It fails on a blank token. A token whose
      stripped text does not start with a quote character comes back whole
      as the body. Otherwise the delimiters are the run of that character
      at the very front of the UNSTRIPPED token, and the body is the token
      without that many characters at each end; a token that starts with
      whitespace therefore has an empty run and an empty body. */
  function SplitQuotes(s: string): (r: Result<Split, Failure>)
    ensures r.Err? <==> Strip(s) == []
    ensures r.Ok? ==> r.value.left == r.value.right
    ensures r.Ok? && Strip(s)[0] !in Leaders() ==> r.value == Split([], s, [])
    ensures r.Ok? && Strip(s)[0] in Leaders() ==>
      var n := |r.value.left|;
      && n <= |s|
      && r.value.left == s[..n]
      && r.value.left == Repeat(Strip(s)[0], n)
      && (n < |s| ==> s[n] != Strip(s)[0])
      && r.value.body == DropBoth(s, n)
  {
    var stripped := Strip(s);
    if stripped == [] then Err(IndexError)
    else
      var leader := stripped[0];
      if leader !in Leaders() then Ok(Split([], s, []))
      else
        var n := LeadingRun(s, leader);
        var quotes := Repeat(leader, n);
        Ok(Split(quotes, DropBoth(s, n), quotes))
  }

  /** A token that starts with whitespace but is not blank is split into
      three empty parts when it continues with a quote character. */
  lemma LeadingSpaceEmptiesSplit(s: string)
    requires s != [] && IsSpace(s[0]) && Strip(s) != [] && Strip(s)[0] in Leaders()
    ensures SplitQuotes(s) == Ok(Split([], [], []))
  {
    var c := Strip(s)[0];
    assert c == '\'' || c == '"';
    assert s[0] != c;
  }

  /** The legacy `quote_string`: `body` between two runs of `count` copies
      of `q`. */
  function QuoteString(body: string, q: QuoteChar, count: nat): (r: string)
    ensures |r| == |body| + 2 * count
    ensures r[..count] == Repeat(q.Value(), count)
    ensures r[count..count + |body|] == body
    ensures r[count + |body|..] == Repeat(q.Value(), count)
  {
    Wrapped(q.Value(), count, body)
  }

  /** The `if`/`elif` chain of the legacy `requote_string_token`, given the
      delimiter length `n` and the body `b`: the new text, or `None` where
      the `else` branch keeps the token.

      A three-quote literal is always rewritten with the `string`
      character and an empty one is always rewritten as an empty literal in
      `single_char`. A one-quote literal is wrapped once in `single_char`
      when that character does not occur in it and it is at most one
      character or a backslash escape; otherwise in `string` when it is not
      empty and that character does not occur in it; a one-quote literal is
      kept only when neither wrapping applies. */
  function Rewrite(n: nat, b: string, style: QuoteStyle): (r: Option<string>)
    ensures n !in {1, 2, 3} ==> r == None
    ensures n == 2 ==> r == Some(QuoteString([], style.singleChar, 1))
    ensures n == 3 ==> r == Some(QuoteString(b, style.stringQuote, 3))
    ensures n == 1 && r.Some? ==>
      || (r.value == QuoteString(b, style.singleChar, 1) && style.singleChar.Value() !in b)
      || (r.value == QuoteString(b, style.stringQuote, 1) && style.stringQuote.Value() !in b && b != [])
    ensures n == 1 && (|b| < 2 || (|b| == 2 && b[0] == '\\')) && style.singleChar.Value() !in b ==>
      r == Some(QuoteString(b, style.singleChar, 1))
    ensures n == 1 && !((|b| < 2 || (|b| == 2 && b[0] == '\\')) && style.singleChar.Value() !in b) &&
            b != [] && style.stringQuote.Value() !in b ==>
      r == Some(QuoteString(b, style.stringQuote, 1))
    ensures n == 1 ==>
      (r.None? <==> style.stringQuote.Value() in b &&
                    (style.singleChar.Value() in b || |b| > 2 || (|b| == 2 && b[0] != '\\')))
  {
    var single := style.singleChar;
    var str := style.stringQuote;
    if n == 3 then Some(QuoteString(b, str, 3))
    else if n == 2 then Some(QuoteString([], single, 1))
    else if n == 1 && |b| < 2 && single.Value() !in b then Some(QuoteString(b, single, 1))
    else if n == 1 && |b| == 2 && b[0] == '\\' && single.Value() !in b then Some(QuoteString(b, single, 1))
    else if n == 1 && |b| != 0 && str.Value() !in b then Some(QuoteString(b, str, 1))
    else None
  }

  /** The legacy `requote_string_token`: the IndexError of `split_quotes`
      escapes, and otherwise the token is rewritten as `Rewrite` says or
      kept. Only one-, two- and three-quote runs are ever rewritten, so an
      unrecognised token, a token with leading whitespace and an empty
      triple-quoted literal are all kept. */
  function RequoteStringToken(tok: string, style: QuoteStyle): (r: Result<string, Failure>)
    ensures r.Err? <==> Strip(tok) == []
    ensures r.Ok? && |SplitQuotes(tok).value.left| !in {1, 2, 3} ==> r.value == tok
  {
    match SplitQuotes(tok)
    case Err(e) => Err(e)
    case Ok(sp) =>
      match Rewrite(|sp.left|, sp.body, style)
      case None => Ok(tok)
      case Some(text) => Ok(text)
  }

  /** A text that starts with a quote character and does not end with
      whitespace is split by the run of its first character. */
  lemma SplitTrimmed(t: string)
    requires t != [] && t[0] in Leaders() && !IsSpace(t[|t| - 1])
    ensures var n := LeadingRun(t, t[0]);
      SplitQuotes(t) == Ok(Split(Repeat(t[0], n), DropBoth(t, n), Repeat(t[0], n)))
  {
    StripTrimmed(t);
  }

  /** What `split_quotes` makes of a composed literal: an empty body makes
      one run of twice the count, a body that starts with the quote
      character lengthens the run, and any other body is read back with the
      delimiters it was composed with. */
  lemma SplitComposed(body: string, q: QuoteChar, k: nat)
    requires 1 <= k
    ensures body == [] ==>
      SplitQuotes(QuoteString(body, q, k)) == Ok(Split(Repeat(q.Value(), 2 * k), [], Repeat(q.Value(), 2 * k)))
    ensures body != [] && body[0] != q.Value() ==>
      SplitQuotes(QuoteString(body, q, k)) == Ok(Split(Repeat(q.Value(), k), body, Repeat(q.Value(), k)))
    ensures body != [] && body[0] == q.Value() ==>
      |SplitQuotes(QuoteString(body, q, k)).value.left| > k
  {
    if body == [] {
      SplitEmptyComposed(body, q, k);
    } else if body[0] != q.Value() {
      SplitPlainComposed(body, q, k);
    } else {
      SplitLongerComposed(body, q, k);
    }
  }

  /** The empty-body case of `SplitComposed`. */
  lemma SplitEmptyComposed(body: string, q: QuoteChar, k: nat)
    requires 1 <= k && body == []
    ensures SplitQuotes(QuoteString(body, q, k)) == Ok(Split(Repeat(q.Value(), 2 * k), [], Repeat(q.Value(), 2 * k)))
  {
    var c := q.Value();
    var t := QuoteString(body, q, k);
    assert t[0] == c && t[|t| - 1] == c;
    SplitTrimmed(t);
    WrappedEmptyRun(c, k);
  }

  /** The round-trip case of `SplitComposed`. */
  lemma SplitPlainComposed(body: string, q: QuoteChar, k: nat)
    requires 1 <= k && body != [] && body[0] != q.Value()
    ensures SplitQuotes(QuoteString(body, q, k)) == Ok(Split(Repeat(q.Value(), k), body, Repeat(q.Value(), k)))
  {
    var c := q.Value();
    var t := QuoteString(body, q, k);
    assert t[0] == c && t[|t| - 1] == c;
    SplitTrimmed(t);
    WrappedPlainRun(c, k, body);
  }

  /** The lengthened-run case of `SplitComposed`: the run is longer than
      `k` and the body is what is left once it is dropped at both ends. */
  lemma SplitLongerComposed(body: string, q: QuoteChar, k: nat)
    requires 1 <= k && body != [] && body[0] == q.Value()
    ensures var t := QuoteString(body, q, k); var m := LeadingRun(t, q.Value());
      && m > k
      && SplitQuotes(t) == Ok(Split(Repeat(q.Value(), m), DropBoth(t, m), Repeat(q.Value(), m)))
  {
    var c := q.Value();
    var t := QuoteString(body, q, k);
    assert t[0] == c && t[|t| - 1] == c;
    SplitTrimmed(t);
    WrappedLongerRun(c, k, body);
  }

  /** A rewrite made by `Rewrite` from a body `b` other than a triple
      literal's body starting with the `string` character is read back by
      `split_quotes` with the same body, and `Rewrite` then yields it
      again. */
  lemma RewriteStable(n: nat, b: string, style: QuoteStyle)
    requires Rewrite(n, b, style).Some?
    ensures var r := Rewrite(n, b, style).value;
      SplitQuotes(r).Ok? &&
      (Rewrite(|SplitQuotes(r).value.left|, SplitQuotes(r).value.body, style) == Some(r) ||
       Rewrite(|SplitQuotes(r).value.left|, SplitQuotes(r).value.body, style) == None)
  {
    var r := Rewrite(n, b, style).value;
    var single := style.singleChar;
    var str := style.stringQuote;
    if n == 3 {
      SplitComposed(b, str, 3);
    } else if n == 2 {
      SplitComposed([], single, 1);
    } else if r == QuoteString(b, single, 1) && single.Value() !in b {
      SplitComposed(b, single, 1);
      if b == [] {
        assert Rewrite(2, [], style) == Some(r);
      } else {
        assert b[0] != single.Value();
      }
    } else {
      SplitComposed(b, str, 1);
      assert b[0] != str.Value();
    }
  }

  /** Requoting twice is requoting once, for every token the legacy engine
      accepts: unlike the current engine, no assumption on the shape of the
      token is needed. */
  lemma RequoteIdempotent(tok: string, style: QuoteStyle)
    requires RequoteStringToken(tok, style).Ok?
    ensures var r := RequoteStringToken(tok, style).value;
      RequoteStringToken(r, style) == Ok(r)
  {
    var sp := SplitQuotes(tok).value;
    var r := RequoteStringToken(tok, style).value;
    if Rewrite(|sp.left|, sp.body, style).Some? {
      RewriteStable(|sp.left|, sp.body, style);
    }
  }

  /** Reading a rewritten literal back gives the body it was made from,
      except for a three-quote literal whose body starts with the `string`
      character, and for a two-quote token with a non-empty body (one with
      text after its closing quotes, which the rewrite drops). */
  lemma RequoteKeepsBody(tok: string, style: QuoteStyle)
    requires RequoteStringToken(tok, style).Ok?
    ensures var r := RequoteStringToken(tok, style).value; var sp := SplitQuotes(tok).value;
      || r == tok
      || (|sp.left| == 3 && sp.body != [] && sp.body[0] == style.stringQuote.Value())
      || (|sp.left| == 2 && sp.body != [])
      || (SplitQuotes(r).Ok? && SplitQuotes(r).value.body == sp.body)
  {
    var sp := SplitQuotes(tok).value;
    var n := |sp.left|;
    var b := sp.body;
    var single := style.singleChar;
    var str := style.stringQuote;
    if n == 3 {
      SplitComposed(b, str, 3);
    } else if n == 2 {
      SplitComposed([], single, 1);
    } else if n == 1 && Rewrite(n, b, style).Some? {
      var r := Rewrite(n, b, style).value;
      if r == QuoteString(b, single, 1) && single.Value() !in b {
        SplitComposed(b, single, 1);
        if b == [] {
          assert SplitQuotes(r).value.body == [];
        }
      } else {
        SplitComposed(b, str, 1);
      }
    }
  }

  /** The three-quote rule as written: a triple-quoted literal whose body
      starts with the `string` character (and is therefore delimited by
      the other character) is rewritten to a literal that `split_quotes`
      no longer reads with the same body, because the new opening run is
      longer than three. */
  lemma TripleRuleLosesBody(b: string, q: QuoteChar, style: QuoteStyle)
    requires b != [] && b[0] == style.stringQuote.Value() && q != style.stringQuote
    ensures var tok := QuoteString(b, q, 3);
      && SplitQuotes(tok) == Ok(Split(Repeat(q.Value(), 3), b, Repeat(q.Value(), 3)))
      && RequoteStringToken(tok, style) == Ok(QuoteString(b, style.stringQuote, 3))
      && var back := SplitQuotes(QuoteString(b, style.stringQuote, 3));
         back.Ok? && back.value.body != b
  {
    var c := style.stringQuote.Value();
    assert q.Value() != c;
    SplitPlainComposed(b, q, 3);
    var r := QuoteString(b, style.stringQuote, 3);
    SplitLongerComposed(b, style.stringQuote, 3);
    var m := LeadingRun(r, c);
    assert |DropBoth(r, m)| < |b|;
  }

  /** The expected-failure test row: under "c_style", the literal made of
      three single quotes, one double quote and three single quotes becomes
      seven double quotes, which Python reads as an empty triple-quoted
      string followed by an unterminated one. */
  lemma TripleQuoteExample()
    ensures RequoteStringToken(QuoteString("\"", SingleQuote, 3), CStyle) == Ok(Repeat('"', 7))
    ensures SplitQuotes(Repeat('"', 7)).value.body == []
  {
    var b := "\"";
    var seven := Repeat('"', 7);
    assert QuoteString(b, DoubleQuote, 3) == seven;
    TripleRuleLosesBody(b, SingleQuote, CStyle);
    SevenQuotesEmpty();
  }

  /** Seven double quotes read as a run of seven around nothing. */
  lemma SevenQuotesEmpty()
    ensures SplitQuotes(Repeat('"', 7)).Ok? && SplitQuotes(Repeat('"', 7)).value.body == []
  {
    var b := "\"";
    assert QuoteString(b, DoubleQuote, 3) == Repeat('"', 7);
    SplitLongerComposed(b, DoubleQuote, 3);
  }

  /** The other expected-failure test row: an empty triple-quoted literal
      reads as a run of six and is kept as it is, whatever the style. */
  lemma EmptyTripleKept(q: QuoteChar, style: QuoteStyle)
    ensures RequoteStringToken(QuoteString([], q, 3), style) == Ok(QuoteString([], q, 3))
  {
    SplitComposed([], q, 3);
  }

  /** One step of the token loop of the legacy `requote_code`: a string
      token gets its requoted text or fails as `split_quotes` does, any
      other token passes through. */
  function RequoteToken(t: Token, style: QuoteStyle): (r: Result<Token, Failure>)
    ensures r.Err? <==> t.kind == Str && Strip(t.text) == []
    ensures r.Ok? ==> SameButText(t, r.value)
    ensures r.Ok? && t.kind != Str ==> r.value == t
    ensures r.Ok? && t.kind == Str ==> RequoteStringToken(t.text, style) == Ok(r.value.text)
  {
    if t.kind != Str then Ok(t)
    else
      match RequoteStringToken(t.text, style)
      case Err(e) => Err(e)
      case Ok(text) => Ok(t.(text := text))
  }

  /** The token loop of the legacy `requote_code`. It fails exactly when
      some string token is blank; otherwise it keeps the tokens and their
      order, leaves every non-string token untouched and replaces the text
      of each string token with its requoted text. */
  function RequoteTokens(tokens: seq<Token>, style: QuoteStyle): (r: Result<seq<Token>, Failure>)
    ensures r.Err? <==> exists i :: 0 <= i < |tokens| && RequoteToken(tokens[i], style).Err?
    ensures r.Ok? ==>
      && |r.value| == |tokens|
      && (forall i :: 0 <= i < |tokens| ==> RequoteToken(tokens[i], style) == Ok(r.value[i]))
    decreases |tokens|
  {
    if tokens == [] then Ok([])
    else
      match RequoteToken(tokens[0], style)
      case Err(e) => Err(e)
      case Ok(head) =>
        match RequoteTokens(tokens[1..], style)
        case Err(e) =>
          assert forall i :: 1 <= i < |tokens| ==> tokens[i] == tokens[1..][i - 1];
          Err(e)
        case Ok(rest) =>
          assert forall i :: 1 <= i < |tokens| ==> tokens[i] == tokens[1..][i - 1];
          Ok([head] + rest)
  }

  /** The loop fails exactly on a blank string token, and otherwise
      changes nothing but the text of the string tokens. */
  lemma RequoteTokensContract(tokens: seq<Token>, style: QuoteStyle)
    ensures RequoteTokens(tokens, style).Err? <==>
      exists i :: 0 <= i < |tokens| && tokens[i].kind == Str && Strip(tokens[i].text) == []
    ensures var r := RequoteTokens(tokens, style);
      r.Ok? ==>
      && (forall i :: 0 <= i < |tokens| ==> SameButText(tokens[i], r.value[i]))
      && (forall i :: 0 <= i < |tokens| && tokens[i].kind != Str ==> r.value[i] == tokens[i])
      && (forall i :: 0 <= i < |tokens| && tokens[i].kind == Str ==>
            RequoteStringToken(tokens[i].text, style) == Ok(r.value[i].text))
  {
    var r := RequoteTokens(tokens, style);
    if r.Err? {
      var i :| 0 <= i < |tokens| && RequoteToken(tokens[i], style).Err?;
    }
    if r.Ok? {
      forall i | 0 <= i < |tokens|
        ensures SameButText(tokens[i], r.value[i])
        ensures tokens[i].kind != Str ==> r.value[i] == tokens[i]
        ensures tokens[i].kind == Str ==> RequoteStringToken(tokens[i].text, style) == Ok(r.value[i].text)
      {
        assert RequoteToken(tokens[i], style) == Ok(r.value[i]);
      }
    }
  }

  /** The non-string tokens of the output are those of the input. */
  lemma {:induction false} NonStringsPreserved(tokens: seq<Token>, style: QuoteStyle)
    requires RequoteTokens(tokens, style).Ok?
    ensures NonStrings(RequoteTokens(tokens, style).value) == NonStrings(tokens)
    decreases |tokens|
  {
    if tokens != [] {
      var r := RequoteTokens(tokens, style).value;
      assert RequoteTokens(tokens[1..], style).Ok?;
      assert r[1..] == RequoteTokens(tokens[1..], style).value;
      NonStringsPreserved(tokens[1..], style);
    }
  }

  /** Requoting a token stream twice is requoting it once. */
  lemma RequoteTokensIdempotent(tokens: seq<Token>, style: QuoteStyle)
    requires RequoteTokens(tokens, style).Ok?
    ensures var once := RequoteTokens(tokens, style).value;
      RequoteTokens(once, style) == Ok(once)
  {
    var once := RequoteTokens(tokens, style).value;
    forall i | 0 <= i < |once|
      ensures RequoteToken(once[i], style) == Ok(once[i])
    {
      assert RequoteToken(tokens[i], style) == Ok(once[i]);
      if tokens[i].kind == Str {
        RequoteIdempotent(tokens[i].text, style);
      }
    }
    RequoteTokensContract(once, style);
    var twice := RequoteTokens(once, style);
    assert twice.Ok?;
    assert twice.value == once;
  }
}

=== FILE: quoting.dfy ===
/** Quote characters and quoting styles of the current engine
    (src/requote/requote.py): the two-valued `QuoteChar`, the three-field
    `QuoteStyle`, its validation against a configuration mapping, its
    conversion from and to such a mapping, and the built-in styles. */
module Quoting {
  import opened Results

  /** The two characters a Python literal can be delimited with. */
  datatype QuoteChar = SingleQuote | DoubleQuote {

    /** The enum member's value, `'` or `"`. */
    function Value(): char
    {
      if SingleQuote? then '\'' else '"'
    }

    /** The value preceded by a backslash, as it would be written inside a
        literal delimited by this character. */
    function Escaped(): (r: string)
      ensures |r| == 2 && r[0] == '\\' && r[1..] == [Value()]
    {
      ['\\', Value()]
    }

    /** The opposite quote character. */
    function Other(): (r: QuoteChar)
      ensures r.Value() != Value()
    {
      if SingleQuote? then DoubleQuote else SingleQuote
    }
  }

  /** `Other` swaps the two characters and swapping twice is the identity. */
  lemma OtherIsInvolution(q: QuoteChar)
    ensures q.Other() != q && q.Other().Other() == q
  {
  }

  /** The characters `split_quotes` accepts as a leader:
      `{i.value for i in QuoteChar}`. */
  function QuoteChars(): set<char>
  {
    {SingleQuote.Value(), DoubleQuote.Value()}
  }

  /** The leaders are exactly the characters whose one-character string
      `QuoteChar(...)` accepts. */
  lemma QuoteCharsAreValues(c: char)
    ensures c in QuoteChars() <==> ParseQuoteChar([c]).Some?
  {
  }

  /** `QuoteChar(value)`: the member whose value is the string `s`, or `None`
      where Python raises ValueError. */
  function ParseQuoteChar(s: string): (r: Option<QuoteChar>)
    ensures r.Some? <==> s == "'" || s == "\""
    ensures r.Some? ==> s == [r.value.Value()]
  {
    if s == [SingleQuote.Value()] then Some(SingleQuote)
    else if s == [DoubleQuote.Value()] then Some(DoubleQuote)
    else None
  }

  /** Looking a member up by its own value gives the member back. */
  lemma ParseValue(q: QuoteChar)
    ensures ParseQuoteChar([q.Value()]) == Some(q)
  {
  }

  /** `_is_valid_quote` on a string value: whether `QuoteChar(s)` succeeds,
      which it does on the two quote characters and nothing else. */
  function IsValidQuote(s: string): (r: bool)
    ensures r <==> s == "'" || s == "\""
  {
    ParseQuoteChar(s).Some?
  }

  datatype QuoteStyle = QuoteStyle(singleChar: QuoteChar, stringQuote: QuoteChar, tripleQuoted: QuoteChar)

  const SingleCharKey: string := "single_char"
  const StringKey: string := "string"
  const TripleQuotedKey: string := "triple_quoted"

  /** `required_keys` of `validate`. */
  const RequiredKeys: set<string> := {SingleCharKey, StringKey, TripleQuotedKey}

  /** The two ways `validate` raises ValidationError. */
  datatype ValidationError =
    | MissingKeys(missing: set<string>)
    | InvalidQuote(key: string, value: string)

  /** `QuoteStyle.validate`: every required key must be present, and then
      every required value must be one of the two quote characters. Missing
      keys are reported before any value is looked at. Python walks the
      required keys in set order, which depends on string hashing; the model
      checks them in a fixed order, so its contract only promises that the
      reported key is some required key whose value is invalid. */
  function Validate(style: map<string, string>): (r: Result<(), ValidationError>)
    ensures r.Ok? <==>
      && SingleCharKey in style && StringKey in style && TripleQuotedKey in style
      && style[SingleCharKey] in {"'", "\""}
      && style[StringKey] in {"'", "\""}
      && style[TripleQuotedKey] in {"'", "\""}
    ensures r.Err? && r.error.MissingKeys? ==>
      r.error.missing == RequiredKeys - style.Keys && r.error.missing != {}
    ensures r.Err? && r.error.InvalidQuote? ==>
      && RequiredKeys <= style.Keys
      && r.error.key in RequiredKeys
      && style[r.error.key] == r.error.value
      && r.error.value !in {"'", "\""}
  {
    var missing := RequiredKeys - style.Keys;
    if missing != {} then Err(MissingKeys(missing))
    else
    assert SingleCharKey !in missing && StringKey !in missing && TripleQuotedKey !in missing;
    if !IsValidQuote(style[SingleCharKey]) then Err(InvalidQuote(SingleCharKey, style[SingleCharKey]))
    else if !IsValidQuote(style[StringKey]) then Err(InvalidQuote(StringKey, style[StringKey]))
    else if !IsValidQuote(style[TripleQuotedKey]) then Err(InvalidQuote(TripleQuotedKey, style[TripleQuotedKey]))
    else Ok(())
  }

  /** `QuoteStyle.from_dict`: validates first, so an invalid mapping never
      yields a style; a valid one yields the style whose three characters are
      the mapping's three values. Keys other than the required ones are
      ignored. */
  function FromDict(style: map<string, string>): (r: Result<QuoteStyle, ValidationError>)
    ensures r.Ok? <==> Validate(style).Ok?
    ensures r.Err? ==> Validate(style) == Err(r.error)
    ensures r.Ok? ==>
      && [r.value.singleChar.Value()] == style[SingleCharKey]
      && [r.value.stringQuote.Value()] == style[StringKey]
      && [r.value.tripleQuoted.Value()] == style[TripleQuotedKey]
  {
    match Validate(style)
    case Err(e) => Err(e)
    case Ok(_) =>
      Ok(QuoteStyle(
           ParseQuoteChar(style[SingleCharKey]).value,
           ParseQuoteChar(style[StringKey]).value,
           ParseQuoteChar(style[TripleQuotedKey]).value))
  }

  /** `QuoteStyle.to_dict`: exactly the three required keys, each mapped to
      its field's character. */
  function ToDict(s: QuoteStyle): (r: map<string, string>)
    ensures r.Keys == RequiredKeys
    ensures forall k :: k in r ==> |r[k]| == 1 && r[k][0] in QuoteChars()
  {
    map[SingleCharKey := [s.singleChar.Value()],
        StringKey := [s.stringQuote.Value()],
        TripleQuotedKey := [s.tripleQuoted.Value()]]
  }

  /** Every style converts to a mapping that validates: the check
      `__post_init__` runs on every new style always passes. */
  lemma ToDictValidates(s: QuoteStyle)
    ensures Validate(ToDict(s)).Ok?
  {
  }

  /** `from_dict(to_dict(s)) == s` for every style, so all eight
      combinations of the two characters over the three fields are accepted
      and come back unchanged. */
  lemma FromDictToDict(s: QuoteStyle)
    ensures FromDict(ToDict(s)) == Ok(s)
  {
    ParseValue(s.singleChar);
    ParseValue(s.stringQuote);
    ParseValue(s.tripleQuoted);
  }

  /** The converse round trip: a mapping that `from_dict` accepts is given
      back by `to_dict`, restricted to the required keys. */
  lemma ToDictFromDict(style: map<string, string>)
    requires FromDict(style).Ok?
    ensures ToDict(FromDict(style).value) == map k | k in RequiredKeys :: style[k]
  {
  }

  /** A value that is not exactly one quote character is rejected, even one
      made of quote characters only: `"-"` and `"''"` both fail. */
  lemma RejectsNonQuoteValues(a: string, b: string, c: string)
    requires a !in {"'", "\""}
    ensures FromDict(map[SingleCharKey := a, StringKey := b, TripleQuotedKey := c]).Err?
    ensures FromDict(map[SingleCharKey := b, StringKey := a, TripleQuotedKey := c]).Err?
    ensures FromDict(map[SingleCharKey := b, StringKey := c, TripleQuotedKey := a]).Err?
  {
    var m1 := map[SingleCharKey := a, StringKey := b, TripleQuotedKey := c];
    assert m1[SingleCharKey] == a;
    var m2 := map[SingleCharKey := b, StringKey := a, TripleQuotedKey := c];
    assert m2[StringKey] == a;
    var m3 := map[SingleCharKey := b, StringKey := c, TripleQuotedKey := a];
    assert m3[TripleQuotedKey] == a;
  }

  /** The built-in "black" style: double quotes everywhere. */
  const Black: QuoteStyle := QuoteStyle(DoubleQuote, DoubleQuote, DoubleQuote)

  /** The built-in "c_style" style: single quotes for empty and one-character
      literals, double quotes for the rest. */
  const CStyle: QuoteStyle := QuoteStyle(SingleQuote, DoubleQuote, DoubleQuote)

  /** `STYLES`. */
  const Styles: map<string, QuoteStyle> := map["black" := Black, "c_style" := CStyle]

  /** The registry holds exactly the two named styles, each given by the
      characters its name promises and each a valid style. */
  lemma BuiltinStyles()
    ensures Styles.Keys == {"black", "c_style"}
    ensures ToDict(Styles["black"]) == map[SingleCharKey := "\"", StringKey := "\"", TripleQuotedKey := "\""]
    ensures ToDict(Styles["c_style"]) == map[SingleCharKey := "'", StringKey := "\"", TripleQuotedKey := "\""]
    ensures forall name :: name in Styles ==> FromDict(ToDict(Styles[name])) == Ok(Styles[name])
  {
    FromDictToDict(Black);
    FromDictToDict(CStyle);
  }
}

=== FILE: requote.dfy ===
/** The current requoting engine (src/requote/requote.py): the literal
    classifier `split_quotes`, the composer `quote_string`, the decision
    table `requote_string_token` and the token loop of `requote_code`.

    Besides the engine as written, the module gives an independent
    statement of the decision table, `ShapeRule`, which classifies a literal
    into one of five shapes and rewrites it only when the rewrite cannot
    end the literal early. The test is conservative: it does not read
    escapes, so a body holding an escaped quote may be kept although its
    rewrite would be a complete literal. The source's table agrees with it everywhere but
    on a three-quote body that holds three `triple_quoted` characters in a
    row without starting or ending with one; a corrected table, which keeps
    such a token, is equal to it. Idempotence, fixpoints and body
    preservation are proved for both tables, safety for the corrected one. */
module Requote {
  import opened Text
  import opened Quoting
  import opened Tokens

  /** The `(left delimiter, body, right delimiter)` triple of `split_quotes`. */
  datatype Split = Split(left: string, body: string, right: string)

  /** `split_quotes`. A token whose stripped text is empty or does not start
      with a quote character (every prefixed literal, and plain text) comes
      back whole as the body, with empty delimiters. Otherwise both
      delimiters are the maximal run of the first character of the stripped
      text, and the body is the stripped text without that many characters
      at each end. */
  function SplitQuotes(s: string): (r: Split)
    ensures r.left == r.right
    ensures r.left == [] <==> Strip(s) == [] || Strip(s)[0] !in QuoteChars()
    ensures r.left == [] ==> r.body == s
    ensures r.left != [] ==>
      var t := Strip(s);
      var n := |r.left|;
      && n <= |t|
      && r.left == t[..n]
      && r.left == Repeat(t[0], n)
      && (n < |t| ==> t[n] != t[0])
      && r.body == DropBoth(t, n)
  {
    var stripped := Strip(s);
    if stripped == [] then Split([], s, [])
    else
      var leader := stripped[0];
      if leader !in QuoteChars() then Split([], s, [])
      else
        var n := LeadingRun(stripped, leader);
        var quotes := Repeat(leader, n);
        Split(quotes, DropBoth(stripped, n), quotes)
  }

  /** `quote_string`: `body` between two runs of `count` copies of `q`. */
  function QuoteString(body: string, q: QuoteChar, count: nat): (r: string)
    ensures |r| == |body| + 2 * count
    ensures r[..count] == Repeat(q.Value(), count)
    ensures r[count..count + |body|] == body
    ensures r[count + |body|..] == Repeat(q.Value(), count)
  {
    Wrapped(q.Value(), count, body)
  }

  /** A text that starts with a quote character and does not end with
      whitespace is split by the run of its first character. */
  lemma SplitTrimmed(t: string)
    requires t != [] && t[0] in QuoteChars() && !IsSpace(t[|t| - 1])
    ensures var n := LeadingRun(t, t[0]);
      SplitQuotes(t) == Split(Repeat(t[0], n), DropBoth(t, n), Repeat(t[0], n))
  {
    StripTrimmed(t);
  }

  /** What `split_quotes` makes of a composed literal: an empty body makes
      one run of twice the count, a body that starts with the quote
      character lengthens the opening run, and any other body is read back
      with the delimiters it was composed with. */
  lemma SplitComposed(body: string, q: QuoteChar, k: nat)
    requires 1 <= k
    ensures body == [] ==>
      SplitQuotes(QuoteString(body, q, k)) == Split(Repeat(q.Value(), 2 * k), [], Repeat(q.Value(), 2 * k))
    ensures body != [] && body[0] != q.Value() ==>
      SplitQuotes(QuoteString(body, q, k)) == Split(Repeat(q.Value(), k), body, Repeat(q.Value(), k))
    ensures body != [] && body[0] == q.Value() ==>
      |SplitQuotes(QuoteString(body, q, k)).left| > k
  {
    if body == [] {
      SplitEmptyComposed(body, q, k);
    } else if body[0] != q.Value() {
      SplitPlainComposed(body, q, k);
    } else {
      SplitLongerComposed(body, q, k);
    }
  }

  /** The empty-body case of `SplitComposed`. */
  lemma SplitEmptyComposed(body: string, q: QuoteChar, k: nat)
    requires 1 <= k && body == []
    ensures SplitQuotes(QuoteString(body, q, k)) == Split(Repeat(q.Value(), 2 * k), [], Repeat(q.Value(), 2 * k))
  {
    var c := q.Value();
    var t := QuoteString(body, q, k);
    assert t[0] == c && t[|t| - 1] == c;
    SplitTrimmed(t);
    WrappedEmptyRun(c, k);
  }

  /** The round-trip case of `SplitComposed`. */
  lemma SplitPlainComposed(body: string, q: QuoteChar, k: nat)
    requires 1 <= k && body != [] && body[0] != q.Value()
    ensures SplitQuotes(QuoteString(body, q, k)) == Split(Repeat(q.Value(), k), body, Repeat(q.Value(), k))
  {
    var c := q.Value();
    var t := QuoteString(body, q, k);
    assert t[0] == c && t[|t| - 1] == c;
    SplitTrimmed(t);
    WrappedPlainRun(c, k, body);
  }

  /** The lengthened-run case of `SplitComposed`: the run is longer than
      `k` and the body is what is left once it is dropped at both ends. */
  lemma SplitLongerComposed(body: string, q: QuoteChar, k: nat)
    requires 1 <= k && body != [] && body[0] == q.Value()
    ensures var t := QuoteString(body, q, k); var m := LeadingRun(t, q.Value());
      && m > k
      && SplitQuotes(t) == Split(Repeat(q.Value(), m), DropBoth(t, m), Repeat(q.Value(), m))
  {
    var c := q.Value();
    var t := QuoteString(body, q, k);
    assert t[0] == c && t[|t| - 1] == c;
    SplitTrimmed(t);
    WrappedLongerRun(c, k, body);
  }

  /** `split_quotes` inverts `quote_string` exactly when the body is not
      empty and does not start with the quote character. */
  lemma SplitQuoteStringRoundTrip(body: string, q: QuoteChar, k: nat)
    requires 1 <= k
    ensures SplitQuotes(QuoteString(body, q, k)) == Split(Repeat(q.Value(), k), body, Repeat(q.Value(), k))
            <==> body != [] && body[0] != q.Value()
  {
    SplitComposed(body, q, k);
  }

  /** The `case` patterns of `requote_string_token`:
      `(q * n, _, q * n)` for `q` one of the two quote characters. */
  predicate Delimited(sp: Split, n: nat)
  {
    && sp.right == sp.left
    && (sp.left == Repeat(SingleQuote.Value(), n) || sp.left == Repeat(DoubleQuote.Value(), n))
  }

  /** `requote_string_token`, case by case in the order of the source. A
      token `split_quotes` does not recognise, and any delimiter run that is
      not 1, 2, 3 or 6 long, is left as it is. Its three-quote case checks
      only the two ends of the body, so a body with three `triple_quoted`
      characters in a row inside it is rewritten into a literal that ends
      early (see `InnerRunExample`). */
  function RequoteStringToken(tok: string, style: QuoteStyle): (r: string)
    ensures SplitQuotes(tok).left == [] ==> r == tok
    ensures |SplitQuotes(tok).left| !in {1, 2, 3, 6} ==> r == tok
  {
    var sp := SplitQuotes(tok);
    assert forall n :: Delimited(sp, n) ==> |sp.left| == n;
    if Delimited(sp, 2) && sp.body == [] then
      QuoteString([], style.singleChar, 1)
    else if Delimited(sp, 6) && sp.body == [] then
      QuoteString([], style.stringQuote, 3)
    else if Delimited(sp, 1) then
      if sp.body == [style.singleChar.Value()] then tok
      else if |sp.body| == 1 then QuoteString(sp.body, style.singleChar, 1)
      // `string.count(style.string.value)` is non-zero
      else if style.stringQuote.Value() in sp.body then tok
      else QuoteString(sp.body, style.stringQuote, 1)
    else if Delimited(sp, 3) then
      if sp.body == [style.tripleQuoted.Value()] then tok
      else if StartsWith(sp.body, [style.tripleQuoted.Value()]) then tok
      else if EndsWith(sp.body, [style.tripleQuoted.Value()]) then tok
      else QuoteString(sp.body, style.tripleQuoted, 3)
    else
      tok
  }

  /** `requote_string_token` with its three-quote case corrected: a body
      holding three `triple_quoted` characters in a row is kept as well,
      as the source already does for a body that starts or ends with one.
      Every other case is the source's. */
  function RequoteStringTokenCorrected(tok: string, style: QuoteStyle): (r: string)
    ensures SplitQuotes(tok).left == [] ==> r == tok
    ensures |SplitQuotes(tok).left| !in {1, 2, 3, 6} ==> r == tok
  {
    var sp := SplitQuotes(tok);
    var triple := style.tripleQuoted.Value();
    assert forall n :: Delimited(sp, n) ==> |sp.left| == n;
    if Delimited(sp, 3) && HasInfix(sp.body, Repeat(triple, 3)) then tok
    else RequoteStringToken(tok, style)
  }

  /** The correction changes nothing but three-quote literals whose body
      holds a run of three `triple_quoted` characters, and it keeps those. */
  lemma CorrectionIsNarrow(tok: string, style: QuoteStyle)
    ensures RequoteStringTokenCorrected(tok, style) == RequoteStringToken(tok, style)
            || (|SplitQuotes(tok).left| == 3 &&
                HasInfix(SplitQuotes(tok).body, Repeat(style.tripleQuoted.Value(), 3)) &&
                RequoteStringTokenCorrected(tok, style) == tok)
  {
    DelimitedByLength(tok, 3);
  }

  /** The literal shapes the decision table distinguishes. */
  datatype Shape =
    | Unrecognized
    | EmptySingle
    | EmptyTriple
    | Single(body: string)
    | Triple(body: string)

  /** The shape of a token, read off its delimiter length and body. */
  function Classify(tok: string): Shape
  {
    var sp := SplitQuotes(tok);
    var n := |sp.left|;
    if n == 2 && sp.body == [] then EmptySingle
    else if n == 6 && sp.body == [] then EmptyTriple
    else if n == 1 then Single(sp.body)
    else if n == 3 then Triple(sp.body)
    else Unrecognized
  }

  /** The engine's test that wrapping `body` in `count` copies of `q` gives
      a literal that ends where intended. It adds no escapes and reads none:
      a single-delimited body counts as unsafe when it holds `q` anywhere,
      escaped or not, and a triple-delimited body when it starts or ends
      with `q` or holds three of it in a row. Every body it accepts is safe;
      some it rejects, such as `\"\"` for `"`, would be safe too (see
      `EscapedQuotesKept`). */
  predicate SafeLiteral(q: QuoteChar, count: nat, body: string)
  {
    if count == 1 then q.Value() !in body
    else body == [] ||
         (body[0] != q.Value() && body[|body| - 1] != q.Value() && !HasInfix(body, Repeat(q.Value(), 3)))
  }

  /** The quote a single-delimited body is rewritten with: `single_char` for
      one character, `string` otherwise. */
  function SingleTarget(body: string, style: QuoteStyle): QuoteChar
  {
    if |body| == 1 then style.singleChar else style.stringQuote
  }

  /** The decision table as a rule per shape: empty literals are always
      rewritten (the empty triple with the `string` character, as the source
      does), other single and triple literals are rewritten with the style's
      character exactly when that is safe, and everything else is kept. */
  function ShapeRule(tok: string, style: QuoteStyle): string
  {
    match Classify(tok)
    case Unrecognized => tok
    case EmptySingle => QuoteString([], style.singleChar, 1)
    case EmptyTriple => QuoteString([], style.stringQuote, 3)
    case Single(body) =>
      var q := SingleTarget(body, style);
      if SafeLiteral(q, 1, body) then QuoteString(body, q, 1) else tok
    case Triple(body) =>
      if SafeLiteral(style.tripleQuoted, 3, body) then QuoteString(body, style.tripleQuoted, 3) else tok
  }

  /** The one shape on which the source departs from `ShapeRule`: a
      three-quote literal whose body neither starts nor ends with the
      `triple_quoted` character but holds three of it in a row. */
  predicate UnguardedInnerRun(tok: string, style: QuoteStyle)
  {
    var sp := SplitQuotes(tok);
    var b := sp.body;
    var c := style.tripleQuoted.Value();
    && |sp.left| == 3
    && b != [] && b[0] != c && b[|b| - 1] != c
    && HasInfix(b, Repeat(c, 3))
  }

  /** For the delimiters `split_quotes` produces, the `case` patterns only
      look at the length. */
  lemma DelimitedByLength(tok: string, n: nat)
    requires 1 <= n
    ensures Delimited(SplitQuotes(tok), n) <==> |SplitQuotes(tok).left| == n
  {
    var sp := SplitQuotes(tok);
    if |sp.left| == n {
      var t := Strip(tok);
      assert t[0] in QuoteChars();
      assert t[0] == SingleQuote.Value() || t[0] == DoubleQuote.Value();
    }
  }

  /** The source's chain of `case` patterns and `if`s is the shape rule,
      except on an unguarded inner run, which it wraps in three
      `triple_quoted` characters although that is not safe. */
  lemma RequoteFollowsShapeRule(tok: string, style: QuoteStyle)
    ensures !UnguardedInnerRun(tok, style) ==> RequoteStringToken(tok, style) == ShapeRule(tok, style)
    ensures UnguardedInnerRun(tok, style) ==>
      RequoteStringToken(tok, style) == QuoteString(SplitQuotes(tok).body, style.tripleQuoted, 3)
  {
    if |SplitQuotes(tok).left| == 3 {
      TripleFollowsShapeRule(tok, style);
    } else {
      OthersFollowShapeRule(tok, style);
    }
  }

  /** The three-quote case of `RequoteFollowsShapeRule`: the source's
      tests on the ends of the body are the ends of `SafeLiteral`. */
  lemma TripleFollowsShapeRule(tok: string, style: QuoteStyle)
    requires |SplitQuotes(tok).left| == 3
    ensures !UnguardedInnerRun(tok, style) ==> RequoteStringToken(tok, style) == ShapeRule(tok, style)
    ensures UnguardedInnerRun(tok, style) ==>
      RequoteStringToken(tok, style) == QuoteString(SplitQuotes(tok).body, style.tripleQuoted, 3)
  {
    var b := SplitQuotes(tok).body;
    var c := style.tripleQuoted.Value();
    TripleCaseAsWritten(tok, b, style);
    assert Classify(tok) == Triple(b);
    if b != [] && (b[0] == c || b[|b| - 1] == c) {
      assert RequoteStringToken(tok, style) == tok;
    } else {
      assert RequoteStringToken(tok, style) == QuoteString(b, style.tripleQuoted, 3);
    }
  }

  /** The three-quote arm of `requote_string_token`: the token is kept
      when its body starts or ends with the `triple_quoted` character, and
      otherwise, the empty body included, wrapped in three of it. */
  lemma TripleCaseAsWritten(tok: string, b: string, style: QuoteStyle)
    requires |SplitQuotes(tok).left| == 3 && SplitQuotes(tok).body == b
    ensures var c := style.tripleQuoted.Value();
      RequoteStringToken(tok, style) ==
        if b != [] && (b[0] == c || b[|b| - 1] == c) then tok else QuoteString(b, style.tripleQuoted, 3)
  {
    DelimitedByLength(tok, 3);
    var sp := SplitQuotes(tok);
    var c := style.tripleQuoted.Value();
    assert !Delimited(sp, 1) && !Delimited(sp, 6);
    assert !(Delimited(sp, 2) && b == []);
    assert Delimited(sp, 3);
    if b == [] {
      assert !StartsWith(b, [c]) && !EndsWith(b, [c]);
    } else {
      assert StartsWith(b, [c]) <==> b[0] == c;
      assert EndsWith(b, [c]) <==> b[|b| - 1] == c;
    }
  }

  /** Every case of `RequoteFollowsShapeRule` but the three-quote one. */
  lemma OthersFollowShapeRule(tok: string, style: QuoteStyle)
    requires |SplitQuotes(tok).left| != 3
    ensures RequoteStringToken(tok, style) == ShapeRule(tok, style)
  {
    DelimitedByLength(tok, 1);
    DelimitedByLength(tok, 2);
    DelimitedByLength(tok, 3);
    DelimitedByLength(tok, 6);
  }

  /** The corrected table is exactly the shape rule. */
  lemma CorrectedFollowsShapeRule(tok: string, style: QuoteStyle)
    ensures RequoteStringTokenCorrected(tok, style) == ShapeRule(tok, style)
  {
    RequoteFollowsShapeRule(tok, style);
    DelimitedByLength(tok, 3);
    var sp := SplitQuotes(tok);
    var c := style.tripleQuoted.Value();
    if |sp.left| == 3 && HasInfix(sp.body, Repeat(c, 3)) {
      assert Classify(tok) == Triple(sp.body);
      assert !SafeLiteral(style.tripleQuoted, 3, sp.body);
    }
  }

  /** The three-quote case as written: a body that neither starts nor ends
      with the `triple_quoted` character but holds three of it in a row is
      wrapped in three of that character anyway, which is not a safe
      literal; the corrected table keeps the token. */
  lemma AsWrittenBreaksInnerRun(b: string, q: QuoteChar, style: QuoteStyle)
    requires b != [] && b[0] != q.Value()
    requires b[0] != style.tripleQuoted.Value() && b[|b| - 1] != style.tripleQuoted.Value()
    requires HasInfix(b, Repeat(style.tripleQuoted.Value(), 3))
    ensures RequoteStringToken(QuoteString(b, q, 3), style) == QuoteString(b, style.tripleQuoted, 3)
    ensures !SafeLiteral(style.tripleQuoted, 3, b)
    ensures RequoteStringTokenCorrected(QuoteString(b, q, 3), style) == QuoteString(b, q, 3)
  {
    var tok := QuoteString(b, q, 3);
    SplitPlainComposed(b, q, 3);
    InnerRunTables(tok, b, style);
  }

  /** On an unguarded inner run the source's table wraps the body in three
      `triple_quoted` characters and the corrected one keeps the token. */
  lemma InnerRunTables(tok: string, b: string, style: QuoteStyle)
    requires |SplitQuotes(tok).left| == 3 && SplitQuotes(tok).body == b
    requires b != [] && b[0] != style.tripleQuoted.Value() && b[|b| - 1] != style.tripleQuoted.Value()
    requires HasInfix(b, Repeat(style.tripleQuoted.Value(), 3))
    ensures RequoteStringToken(tok, style) == QuoteString(b, style.tripleQuoted, 3)
    ensures RequoteStringTokenCorrected(tok, style) == tok
  {
    assert UnguardedInnerRun(tok, style);
    TripleFollowsShapeRule(tok, style);
    DelimitedByLength(tok, 3);
  }

  /** The literal made of three single quotes, `a`, three double quotes,
      `b` and three single quotes: under "c_style" the source rewrites it
      with three double quotes on each side, and Python would then read a
      literal that ends right after the `a`. */
  lemma InnerRunExample()
    ensures RequoteStringToken(QuoteString("a\"\"\"b", SingleQuote, 3), CStyle)
            == QuoteString("a\"\"\"b", DoubleQuote, 3)
    ensures RequoteStringTokenCorrected(QuoteString("a\"\"\"b", SingleQuote, 3), CStyle)
            == QuoteString("a\"\"\"b", SingleQuote, 3)
  {
    var b := "a\"\"\"b";
    assert InfixAt(b, Repeat('"', 3), 1);
    AsWrittenBreaksInnerRun(b, SingleQuote, CStyle);
  }

  /** The literal `'\"\"'`, a single-quoted body of two escaped double
      quotes, is kept under "c_style": the `string` character occurs in the
      body, and the engine does not look at the backslashes before it,
      although `"\"\""` would be a complete literal with the same value. */
  lemma EscapedQuotesKept()
    ensures RequoteStringToken(QuoteString("\\\"\\\"", SingleQuote, 1), CStyle)
            == QuoteString("\\\"\\\"", SingleQuote, 1)
    ensures !SafeLiteral(DoubleQuote, 1, "\\\"\\\"")
  {
    var b := "\\\"\\\"";
    assert b[1] == '"';
    StringQuoteInBodyKept(QuoteString(b, SingleQuote, 1), b);
  }

  /** A one-quote token whose body of two or more characters holds the
      `string` character is kept. */
  lemma StringQuoteInBodyKept(tok: string, b: string)
    requires tok == QuoteString(b, SingleQuote, 1)
    requires |b| >= 2 && b[0] != '\'' && '"' in b
    ensures RequoteStringToken(tok, CStyle) == tok
  {
    SplitPlainComposed(b, SingleQuote, 1);
    OthersFollowShapeRule(tok, CStyle);
    assert Classify(tok) == Single(b);
  }

  /** An empty triple-quoted literal, read as a run of six, is rewritten as
      an empty triple-quoted literal in the `string` character. */
  lemma EmptyTripleRewritten(q: QuoteChar, style: QuoteStyle)
    ensures RequoteStringToken(QuoteString([], q, 3), style) == QuoteString([], style.stringQuote, 3)
  {
    SplitComposed([], q, 3);
    OthersFollowShapeRule(QuoteString([], q, 3), style);
  }

  /** Literals already written the way the style wants are fixpoints. */
  predicate InStyle(tok: string, style: QuoteStyle)
  {
    match Classify(tok)
    case Unrecognized => false
    case EmptySingle => tok == QuoteString([], style.singleChar, 1)
    case EmptyTriple => tok == QuoteString([], style.stringQuote, 3)
    case Single(body) => tok == QuoteString(body, SingleTarget(body, style), 1)
    case Triple(body) => tok == QuoteString(body, style.tripleQuoted, 3)
  }

  /** A literal in the style is left unchanged by both tables. */
  lemma InStyleIsFixpoint(tok: string, style: QuoteStyle)
    requires InStyle(tok, style)
    ensures RequoteStringToken(tok, style) == tok
    ensures RequoteStringTokenCorrected(tok, style) == tok
  {
    ShapeRuleFixpoint(tok, style);
    RequoteFollowsShapeRule(tok, style);
    CorrectedFollowsShapeRule(tok, style);
  }

  /** The shape rule leaves a literal in the style unchanged: either it
      rewrites it with the very characters it already has, or it keeps it. */
  lemma ShapeRuleFixpoint(tok: string, style: QuoteStyle)
    requires InStyle(tok, style)
    ensures ShapeRule(tok, style) == tok
  {
    var sh := Classify(tok);
    if sh.Single? {
      var q := SingleTarget(sh.body, style);
      assert ShapeRule(tok, style) == if SafeLiteral(q, 1, sh.body) then QuoteString(sh.body, q, 1) else tok;
    } else if sh.Triple? {
      assert ShapeRule(tok, style) == if SafeLiteral(style.tripleQuoted, 3, sh.body) then QuoteString(sh.body, style.tripleQuoted, 3) else tok;
    }
  }

  /** A token is well shaped unless `split_quotes` reads it as a one- or
      three-quote literal with an empty body; such a token is not a complete
      literal (see `ComposedIsWellShaped`). */
  predicate WellShaped(tok: string)
  {
    Classify(tok) != Single([]) && Classify(tok) != Triple([])
  }

  /** Every unprefixed literal Python accepts is well shaped: `body`
      between one `q` on each side, where it cannot start with `q` (that `q`
      would close the literal) but may hold an escaped one further on, or
      between three. */
  lemma ComposedIsWellShaped(body: string, q: QuoteChar, count: nat)
    requires count in {1, 3}
    requires count == 1 ==> body == [] || body[0] != q.Value()
    ensures WellShaped(QuoteString(body, q, count))
  {
    var tok := QuoteString(body, q, count);
    if body == [] {
      SplitEmptyComposed(body, q, count);
      WellShapedBySplit(tok, 2 * count, body);
    } else if body[0] != q.Value() {
      SplitPlainComposed(body, q, count);
      WellShapedBySplit(tok, count, body);
    } else {
      assert count == 3;
      SplitLongerComposed(body, q, count);
      WellShapedBySplit(tok, LeadingRun(tok, q.Value()), DropBoth(tok, LeadingRun(tok, q.Value())));
    }
  }

  /** A token is ill shaped only when its delimiter run is one or three
      long and the body between is empty. */
  lemma WellShapedBySplit(tok: string, n: nat, b: string)
    requires |SplitQuotes(tok).left| == n && SplitQuotes(tok).body == b
    ensures WellShaped(tok) <==> !(n in {1, 3} && b == [])
  {
  }

  /** A rewrite of a non-empty body that does not start with the quote it
      is wrapped in, by the character the style picks for its shape, is a
      literal in the style. */
  lemma RewriteInStyle(body: string, q: QuoteChar, count: nat, style: QuoteStyle)
    requires count in {1, 3} && body != [] && body[0] != q.Value()
    requires count == 1 ==> q == SingleTarget(body, style)
    requires count == 3 ==> q == style.tripleQuoted
    ensures InStyle(QuoteString(body, q, count), style)
  {
    SplitComposed(body, q, count);
  }

  /** The shape rule turns every well-shaped token it rewrites into a
      literal in the style. */
  lemma ShapeRuleReachesStyle(tok: string, style: QuoteStyle)
    requires WellShaped(tok)
    ensures ShapeRule(tok, style) == tok || InStyle(ShapeRule(tok, style), style)
  {
    match Classify(tok)
    case Unrecognized =>
    case EmptySingle =>
      SplitComposed([], style.singleChar, 1);
    case EmptyTriple =>
      SplitComposed([], style.stringQuote, 3);
    case Single(body) =>
      var q := SingleTarget(body, style);
      if SafeLiteral(q, 1, body) {
        assert body[0] != q.Value();
        RewriteInStyle(body, q, 1, style);
      }
    case Triple(body) =>
      if SafeLiteral(style.tripleQuoted, 3, body) {
        RewriteInStyle(body, style.tripleQuoted, 3, style);
      }
  }

  /** Every rewrite of a well-shaped token, by either table, is a literal
      in the style. */
  lemma RequoteReachesStyle(tok: string, style: QuoteStyle)
    requires WellShaped(tok)
    ensures var r := RequoteStringToken(tok, style); r == tok || InStyle(r, style)
    ensures var r := RequoteStringTokenCorrected(tok, style); r == tok || InStyle(r, style)
  {
    RequoteFollowsShapeRule(tok, style);
    CorrectedFollowsShapeRule(tok, style);
    ShapeRuleReachesStyle(tok, style);
    if UnguardedInnerRun(tok, style) {
      RewriteInStyle(SplitQuotes(tok).body, style.tripleQuoted, 3, style);
    }
  }

  /** Requoting a well-shaped token twice is requoting it once, with either
      table. */
  lemma RequoteIdempotent(tok: string, style: QuoteStyle)
    requires WellShaped(tok)
    ensures RequoteStringToken(RequoteStringToken(tok, style), style) == RequoteStringToken(tok, style)
    ensures RequoteStringTokenCorrected(RequoteStringTokenCorrected(tok, style), style)
            == RequoteStringTokenCorrected(tok, style)
  {
    RequoteReachesStyle(tok, style);
    var r := RequoteStringToken(tok, style);
    if r != tok {
      InStyleIsFixpoint(r, style);
    }
    var c := RequoteStringTokenCorrected(tok, style);
    if c != tok {
      InStyleIsFixpoint(c, style);
    }
  }

  /** `r` is `body` between `count` copies of `q`, in a way that cannot end
      the literal early. */
  predicate SafelyQuoted(r: string, body: string, q: QuoteChar, count: nat)
  {
    r == QuoteString(body, q, count) && SafeLiteral(q, count, body)
  }

  /** Every rewrite of the corrected table keeps the body byte for byte and
      wraps it in one of the style's characters: `single_char` or `string`
      once, `string` three times around an empty body, or `triple_quoted`
      three times, never in a way that ends the literal early. */
  lemma RewritesAreSafe(tok: string, style: QuoteStyle)
    ensures var r := RequoteStringTokenCorrected(tok, style); var b := SplitQuotes(tok).body;
      || r == tok
      || SafelyQuoted(r, b, style.singleChar, 1)
      || SafelyQuoted(r, b, style.stringQuote, 1)
      || (b == [] && SafelyQuoted(r, b, style.stringQuote, 3))
      || SafelyQuoted(r, b, style.tripleQuoted, 3)
  {
    CorrectedFollowsShapeRule(tok, style);
  }

  /** Reading a literal the shape rule rewrote gives back the body it was
      made from. */
  lemma ShapeRuleKeepsBody(tok: string, style: QuoteStyle)
    ensures var r := ShapeRule(tok, style);
      r == tok || SplitQuotes(r).body == SplitQuotes(tok).body
  {
    var sh := Classify(tok);
    var b := SplitQuotes(tok).body;
    if sh == EmptySingle {
      assert b == [];
      SplitEmptyComposed([], style.singleChar, 1);
    } else if sh == EmptyTriple {
      assert b == [];
      SplitEmptyComposed([], style.stringQuote, 3);
    } else if sh.Single? {
      assert sh.body == b;
      var q := SingleTarget(b, style);
      if SafeLiteral(q, 1, b) {
        assert ShapeRule(tok, style) == QuoteString(b, q, 1);
        SplitComposed(b, q, 1);
      }
    } else if sh.Triple? {
      assert sh.body == b;
      if SafeLiteral(style.tripleQuoted, 3, b) {
        assert ShapeRule(tok, style) == QuoteString(b, style.tripleQuoted, 3);
        SplitComposed(b, style.tripleQuoted, 3);
      }
    }
  }

  /** Reading a rewritten literal back gives the body it was made from,
      with either table. */
  lemma RequoteKeepsBody(tok: string, style: QuoteStyle)
    ensures var r := RequoteStringToken(tok, style);
      r == tok || SplitQuotes(r).body == SplitQuotes(tok).body
    ensures var r := RequoteStringTokenCorrected(tok, style);
      r == tok || SplitQuotes(r).body == SplitQuotes(tok).body
  {
    RequoteFollowsShapeRule(tok, style);
    CorrectedFollowsShapeRule(tok, style);
    ShapeRuleKeepsBody(tok, style);
    if UnguardedInnerRun(tok, style) {
      SplitPlainComposed(SplitQuotes(tok).body, style.tripleQuoted, 3);
    }
  }

  /** One step of the token loop of `requote_code`: a string token gets
      its requoted text, any other token passes through. */
  function RequoteToken(t: Token, style: QuoteStyle): (r: Token)
    ensures SameButText(t, r)
    ensures t.kind != Str ==> r == t
    ensures t.kind == Str ==> r.text == RequoteStringToken(t.text, style)
  {
    if t.kind == Str then t.(text := RequoteStringToken(t.text, style)) else t
  }

  /** The token loop of `requote_code`: the same tokens in the same order,
      each passed through `RequoteToken`. */
  function RequoteTokens(tokens: seq<Token>, style: QuoteStyle): (r: seq<Token>)
    ensures |r| == |tokens|
    ensures forall i :: 0 <= i < |tokens| ==> r[i] == RequoteToken(tokens[i], style)
    decreases |tokens|
  {
    if tokens == [] then []
    else [RequoteToken(tokens[0], style)] + RequoteTokens(tokens[1..], style)
  }

  /** Every non-string token comes out untouched, and every string token
      with only its text replaced by its requoted text. */
  lemma RequoteTokensContract(tokens: seq<Token>, style: QuoteStyle)
    ensures var r := RequoteTokens(tokens, style);
      && |r| == |tokens|
      && (forall i :: 0 <= i < |tokens| ==> SameButText(tokens[i], r[i]))
      && (forall i :: 0 <= i < |tokens| && tokens[i].kind != Str ==> r[i] == tokens[i])
      && (forall i :: 0 <= i < |tokens| && tokens[i].kind == Str ==>
            r[i].text == RequoteStringToken(tokens[i].text, style))
  {
    var r := RequoteTokens(tokens, style);
    forall i | 0 <= i < |tokens|
      ensures SameButText(tokens[i], r[i])
      ensures tokens[i].kind != Str ==> r[i] == tokens[i]
      ensures tokens[i].kind == Str ==> r[i].text == RequoteStringToken(tokens[i].text, style)
    {
      assert r[i] == RequoteToken(tokens[i], style);
    }
  }

  /** The non-string tokens of the output are those of the input. */
  lemma {:induction false} NonStringsPreserved(tokens: seq<Token>, style: QuoteStyle)
    ensures NonStrings(RequoteTokens(tokens, style)) == NonStrings(tokens)
    decreases |tokens|
  {
    if tokens != [] {
      var r := RequoteTokens(tokens, style);
      assert r[1..] == RequoteTokens(tokens[1..], style);
      NonStringsPreserved(tokens[1..], style);
    }
  }

  /** Requoting a token stream whose string tokens are well shaped twice is
      requoting it once. */
  lemma RequoteTokensIdempotent(tokens: seq<Token>, style: QuoteStyle)
    requires forall i :: 0 <= i < |tokens| && tokens[i].kind == Str ==> WellShaped(tokens[i].text)
    ensures RequoteTokens(RequoteTokens(tokens, style), style) == RequoteTokens(tokens, style)
  {
    var once := RequoteTokens(tokens, style);
    var twice := RequoteTokens(once, style);
    forall i | 0 <= i < |tokens|
      ensures twice[i] == once[i]
    {
      if tokens[i].kind == Str {
        RequoteIdempotent(tokens[i].text, style);
      }
    }
  }
}

=== FILE: results.dfy ===
/** Failure-carrying return values shared by both engines: `Option` for a
    lookup that may find nothing, `Result` for an operation that raises. */
module Results {

  datatype Option<+T> = None | Some(value: T)

  datatype Result<+T, +E> = Ok(value: T) | Err(error: E)
}

=== FILE: text.dfy ===
/** The few Python `str` operations the requoting engines rely on, written
    over `seq<char>`: repetition (`c * n`), whitespace stripping
    (`str.strip()`), the length of a leading run of one character
    (`len(s) - len(s.lstrip(c))`, or `takewhile`), the slice `s[n:-n]`,
    `startswith` / `endswith`, and substring membership (`p in s`). */
module Text {

  /** `n` copies of `c`, Python's `c * n`. */
  function Repeat(c: char, n: nat): (r: string)
    ensures |r| == n
    ensures forall i :: 0 <= i < n ==> r[i] == c
  {
    seq(n, _ => c)
  }

  /** Python's `str.isspace()` on one character: the code points whose
      bidirectional class is WS, B or S, or whose category is Zs. Among
      ASCII characters these are the space, tab, line feed, vertical tab,
      form feed, carriage return and the four separators 0x1C to 0x1F; the
      quote characters are never whitespace. */
  function IsSpace(c: char): (r: bool)
    ensures c as int < 0x80 ==>
      (r <==> c in " \t\n\r" || c as int in {0x0B, 0x0C, 0x1C, 0x1D, 0x1E, 0x1F})
    ensures c == '\'' || c == '"' ==> !r
  {
    var u := c as int;
    || u == 0x20
    || 0x09 <= u <= 0x0D
    || 0x1C <= u <= 0x1F
    || u == 0x85
    || u == 0xA0
    || u == 0x1680
    || 0x2000 <= u <= 0x200A
    || u == 0x2028
    || u == 0x2029
    || u == 0x202F
    || u == 0x205F
    || u == 0x3000
  }

  /** Number of whitespace characters at the front of `s`. */
  function LeadingSpaces(s: string): (n: nat)
    ensures n <= |s|
    ensures forall i :: 0 <= i < n ==> IsSpace(s[i])
    ensures n < |s| ==> !IsSpace(s[n])
  {
    if s == [] || !IsSpace(s[0]) then 0 else 1 + LeadingSpaces(s[1..])
  }

  /** Number of whitespace characters at the end of `s`. */
  function TrailingSpaces(s: string): (n: nat)
    ensures n <= |s|
    ensures forall i :: |s| - n <= i < |s| ==> IsSpace(s[i])
    ensures n < |s| ==> !IsSpace(s[|s| - 1 - n])
  {
    if s == [] || !IsSpace(s[|s| - 1]) then 0 else 1 + TrailingSpaces(s[..|s| - 1])
  }

  /** Python's `s.strip()`: `s` without its leading and trailing whitespace.
      The result is the infix of `s` that starts at its first non-space
      character; everything after it is whitespace, it neither starts nor
      ends with whitespace, and it is empty exactly when `s` is all
      whitespace. */
  function Strip(s: string): (r: string)
    ensures |r| <= |s|
    ensures LeadingSpaces(s) + |r| <= |s|
    ensures r == s[LeadingSpaces(s)..LeadingSpaces(s) + |r|]
    ensures forall i :: LeadingSpaces(s) + |r| <= i < |s| ==> IsSpace(s[i])
    ensures r != [] ==> !IsSpace(r[0]) && !IsSpace(r[|r| - 1])
    ensures r == [] <==> LeadingSpaces(s) == |s|
  {
    var rest := s[LeadingSpaces(s)..];
    rest[..|rest| - TrailingSpaces(rest)]
  }

  /** A text that neither starts nor ends with whitespace is its own strip. */
  lemma StripTrimmed(s: string)
    requires s != [] && !IsSpace(s[0]) && !IsSpace(s[|s| - 1])
    ensures Strip(s) == s
  {
    assert LeadingSpaces(s) == 0;
    assert TrailingSpaces(s) == 0;
  }

  /** Length of the run of `c` at the front of `s`: Python's
      `len(s) - len(s.lstrip(c))`, and also `len(list(takewhile(c.__eq__, s)))`. */
  function LeadingRun(s: string, c: char): (n: nat)
    ensures n <= |s|
    ensures forall i :: 0 <= i < n ==> s[i] == c
    ensures n < |s| ==> s[n] != c
  {
    if s == [] || s[0] != c then 0 else 1 + LeadingRun(s[1..], c)
  }

  /** The run length is the only count with the two properties above. */
  lemma LeadingRunUnique(s: string, c: char, n: nat)
    requires n <= |s|
    requires forall i :: 0 <= i < n ==> s[i] == c
    requires n < |s| ==> s[n] != c
    ensures LeadingRun(s, c) == n
  {
  }

  /** Prefixing `k` copies of `c` lengthens the run of `c` by exactly `k`. */
  lemma LeadingRunAfterRepeat(c: char, k: nat, s: string)
    ensures LeadingRun(Repeat(c, k) + s, c) == k + LeadingRun(s, c)
  {
    var t := Repeat(c, k) + s;
    var m := LeadingRun(s, c);
    forall i | 0 <= i < k + m
      ensures t[i] == c
    {
      if i >= k {
        assert t[i] == s[i - k];
      }
    }
    if k + m < |t| {
      assert t[k + m] == s[m];
    }
    LeadingRunUnique(t, c, k + m);
  }

  /** `body` between two runs of `k` copies of `c`. */
  function Wrapped(c: char, k: nat, body: string): (r: string)
    ensures |r| == |body| + 2 * k
    ensures forall i :: 0 <= i < k ==> r[i] == c
    ensures forall i :: |r| - k <= i < |r| ==> r[i] == c
    ensures forall i :: 0 <= i < |body| ==> r[k + i] == body[i]
  {
    Repeat(c, k) + body + Repeat(c, k)
  }

  /** The run of `c` at the front of a wrapped body is `k` longer than the
      run at the front of the body followed by the closing copies. */
  lemma LeadingRunOfWrapped(c: char, k: nat, body: string)
    ensures LeadingRun(Wrapped(c, k, body), c) == k + LeadingRun(body + Repeat(c, k), c)
  {
    assert Wrapped(c, k, body) == Repeat(c, k) + (body + Repeat(c, k));
    LeadingRunAfterRepeat(c, k, body + Repeat(c, k));
  }

  /** Python's slice `s[n:-n]`. For `n == 0` the stop index is `-0 == 0`, so
      the slice is empty; for `n > 0` it drops `n` characters at each end and
      is empty once the two ends meet. */
  function DropBoth(s: string, n: nat): (r: string)
    ensures n == 0 ==> r == []
    ensures 0 < n && 2 * n < |s| ==> |r| == |s| - 2 * n
    ensures 0 < n && |s| <= 2 * n ==> r == []
    ensures forall i :: 0 <= i < |r| ==> r[i] == s[n + i]
  {
    if n == 0 || |s| <= 2 * n then [] else s[n..|s| - n]
  }

  /** Wrapping an empty body makes one run of twice the count. */
  lemma WrappedEmptyRun(c: char, k: nat)
    ensures LeadingRun(Wrapped(c, k, []), c) == 2 * k
    ensures DropBoth(Wrapped(c, k, []), 2 * k) == []
  {
    var t := Wrapped(c, k, []);
    LeadingRunUnique(t, c, 2 * k);
  }

  /** A body that does not start with `c` leaves the run at `k`, and
      dropping `k` characters at each end gives the body back. */
  lemma WrappedPlainRun(c: char, k: nat, body: string)
    requires 1 <= k && body != [] && body[0] != c
    ensures LeadingRun(Wrapped(c, k, body), c) == k
    ensures DropBoth(Wrapped(c, k, body), k) == body
  {
    var t := Wrapped(c, k, body);
    LeadingRunUnique(t, c, k);
    assert t[k..|t| - k] == body;
  }

  /** A body that starts with `c` lengthens the run beyond `k`. */
  lemma WrappedLongerRun(c: char, k: nat, body: string)
    requires body != [] && body[0] == c
    ensures LeadingRun(Wrapped(c, k, body), c) > k
  {
    LeadingRunOfWrapped(c, k, body);
    assert (body + Repeat(c, k))[0] == c;
  }

  /** Python's `s.startswith(p)`. */
  predicate StartsWith(s: string, p: string)
  {
    p <= s
  }

  /** `s.startswith(p)` holds exactly when `p` matches `s` character by
      character from the front. */
  lemma StartsWithByIndex(s: string, p: string)
    ensures StartsWith(s, p) <==> |p| <= |s| && forall i :: 0 <= i < |p| ==> s[i] == p[i]
  {
    if |p| <= |s| && forall i :: 0 <= i < |p| ==> s[i] == p[i] {
      assert s[..|p|] == p;
    }
  }

  /** Python's `s.endswith(p)`. */
  predicate EndsWith(s: string, p: string)
  {
    |p| <= |s| && s[|s| - |p|..] == p
  }

  /** `s.endswith(p)` holds exactly when `p` matches the last `|p|`
      characters of `s` one by one. */
  lemma EndsWithByIndex(s: string, p: string)
    ensures EndsWith(s, p) <==> |p| <= |s| && forall i :: 0 <= i < |p| ==> s[|s| - |p| + i] == p[i]
  {
    if |p| <= |s| && forall i :: 0 <= i < |p| ==> s[|s| - |p| + i] == p[i] {
      assert s[|s| - |p|..] == p;
    }
  }

  /** `p` occurs in `s` starting at index `i`. */
  predicate InfixAt(s: string, p: string, i: int)
  {
    0 <= i <= |s| - |p| && s[i..i + |p|] == p
  }

  /** Python's `p in s` for strings: `p` occurs somewhere in `s`. */
  predicate HasInfix(s: string, p: string)
  {
    exists i | 0 <= i <= |s| - |p| :: InfixAt(s, p, i)
  }
}

=== FILE: tokens.dfy ===
/** The tokens the stream drivers work on. Producing them from source text
    (`tokenize.tokenize`) and turning them back into text
    (`tokenize.untokenize`) are not part of this model: a token is its type
    number, its text and the positional fields the drivers copy unchanged. */
module Tokens {

  /** `tokenize.STRING`, or any other token type by its number. */
  datatype TokenKind = Str | Other(number: nat)

  datatype Token = Token(kind: TokenKind, text: string, start: (nat, nat), end: (nat, nat), line: string)

  /** The tokens that are not string literals, in order. */
  function NonStrings(tokens: seq<Token>): (r: seq<Token>)
    ensures |r| <= |tokens|
    ensures forall i :: 0 <= i < |r| ==> r[i].kind != Str
    decreases |tokens|
  {
    if tokens == [] then []
    else if tokens[0].kind == Str then NonStrings(tokens[1..])
    else [tokens[0]] + NonStrings(tokens[1..])
  }

  /** A token that differs from `t` in its text at most. */
  predicate SameButText(t: Token, u: Token)
  {
    u.kind == t.kind && u.start == t.start && u.end == t.end && u.line == t.line
  }
}
